=== FILE: README.md ===
# Shopping list: barcode values, scan confirmation and small helpers

This project is a Dafny model of the core of a Leptos shopping-list web app.
It proves properties of that model.

The centre of the model is the barcode pipeline:

- **Digit count.** `dec_len` gives the number of decimal digits of a `u64`.
- **Barcode values.** A `Barcode` is a nonzero `i64`. The validating constructors accept only 8 (EAN-8) or 13 (EAN-13) digits, and check only the digit count, never an EAN check digit. A barcode read back from storage is only known to be nonzero.
- **Decoder results.** They are converted to barcodes by the decoder's format tag and the parsed text.
- **Storage.** A barcode is stored as an SQLite integer, where 0 means "no barcode".
- **Debounce.** The scanner's state machine counts identical consecutive reads. The component hands a barcode to its consumer on every successful scan that leaves the count at 3 or more. A failed scan, or a tick without the video or canvas element, leaves the count as it is and calls nothing.
- **Frames.** Each frame is either skipped (zero size) or cropped to a centred band 100 px high.

The camera, the canvas and the symbol decoder are not modelled. A tick is a plain value: the video size, whether drawing the band failed, and what the decoder reported.

Around the pipeline sit small pieces:

- the two language enumerations, with their string mappings;
- the two list-removal operations: one removes the first item with an id, the other all of them;
- the client-side cookie-string lookup and the `set_cookie` string format;
- the saturating item counters;
- the two popup cells.

Where the source changes state in place, the model has a class whose methods update fields. This covers the scan counter, both lists, the counters and the popups. The rest is functions and lemmas.

Notes on following the code:

- **Confirmation fires repeatedly.** The code (src/barcode_scanner/mod.rs:178-184) calls the consumer after every successful scan that leaves the count at 3 or more, not only on the scan that reaches 3. The count signal is written only on a successful scan (src/barcode_scanner/mod.rs:165-168), so other ticks call nothing. The model follows the code: `BarcodeScanner.ExampleRefires` shows a fourth read firing again.
- **Integer widths.** Rust's `u8`, `u32`, `u64` and `i64` are subset types of `int` with their exact bounds.
- **`i64 as u64`.** `Numeric.I64AsU64` writes out this cast as two's complement.
- **Number parsing.** `str::parse::<u64>` is `Numeric.ParseUnsigned`. It skips one leading `+`. It fails with `Empty`, `InvalidDigit` or `PosOverflow`, checked left to right.

## Model

| member | source | states |
|---|---|---|
| DecimalLength.DecLen | src/util.rs:8-29 | the result k is between 1 and 20 and 10^(k-1) <= n < 10^k (for k > 1), so it is the decimal digit count |
| DecimalLength.DecLenIsNumDigits | src/util.rs:8-29 | the range table agrees with counting digits by repeated division by 10 |
| DecimalLength.DecLenIsLeast | src/util.rs:8-29 | dec_len(n) is the least k >= 1 with n < 10^k |
| DecimalLength.DecLenOfSmall | src/util.rs:9 | dec_len(n) = 1 exactly for n <= 9 (so dec_len(0) = 1) |
| DecimalLength.DecLenEight | src/util.rs:15-16 | dec_len(n) = 8 exactly when 10,000,000 <= n <= 99,999,999 |
| DecimalLength.DecLenThirteen | src/util.rs:20-21 | dec_len(n) = 13 exactly when 10^12 <= n <= 10^13 - 1 |
| DecimalLength.DecLenOfMax | src/util.rs:27-28 | dec_len(u64::MAX) = 20 |
| DecimalLength.DecLenMonotone | src/util.rs:8-29 | a <= b implies dec_len(a) <= dec_len(b) |
| DecimalLength.DecLenIsTextLength | src/util.rs:8-29 | the decimal rendering of n has exactly dec_len(n) characters |
| DecimalLength.DecLenOfDigits | src/util.rs:8-29 | a k-character digit string denotes a number of at most k digits |
| Numeric.I64AsU64 | src/barcode_scanner/barcode.rs:63 | `as u64` keeps non-negative values and maps a negative x to x + 2^64, above the `i64` range |
| Numeric.ParseUnsigned | src/barcode_scanner/barcode.rs:97 | a successful parse never exceeds the target type's maximum |
| Numeric.ParseUnsignedSpec | src/barcode_scanner/barcode.rs:97 | a parse succeeds exactly on an optional `+` and a non-empty run of digits whose value fits; it yields that value, and the empty text is `Empty` |
| Numeric.AccumulatePrefix | src/barcode_scanner/barcode.rs:97 | the digit loop reads through a run of digits that fits without an error, continuing from that run's value |
| Numeric.ParseOverflow | src/barcode_scanner/barcode.rs:97 | a non-empty run of digits (after an optional `+`) whose value is too large is `PosOverflow` |
| Numeric.ParseInvalidDigit | src/barcode_scanner/barcode.rs:97 | a non-digit after the optional `+` whose preceding digits fit is `InvalidDigit` |
| Numeric.ParseToDecimal | src/barcode_scanner/barcode.rs:97 | parsing the decimal rendering of a number in range gives the number back |
| Numeric.SaturatingInc | src/item/count.rs:6 | `saturating_add(1)`: x + 1 below the maximum, the maximum unchanged |
| Numeric.SaturatingDec | src/item/count.rs:7 | `saturating_sub(1)`: x - 1 above zero, zero unchanged |
| Numeric.SaturatingRoundTrip | src/item/count.rs:6-7 | dec(inc(x)) = x below the maximum and inc(dec(x)) = x above zero |
| Numeric.ParseOr | src/item/count.rs:17 | `parse().unwrap_or(c)` is within range and is either c or a successful parse |
| Numeric.ParseOrSpec | src/item/count.rs:16-18 | text that is empty, has a non-digit or is too large keeps the current value; in-range digits replace it with their value |
| Numeric.ParseOrToDecimal | src/item/count.rs:16-18 | entering the decimal text of an in-range number stores that number |
| ScannerBarcode.TryIntoI64 | src/barcode_scanner/barcode.rs:42 | the `u64` to `i64` conversion succeeds exactly up to i64::MAX and keeps the value |
| ScannerBarcode.Validate | src/barcode_scanner/barcode.rs:36-45 | the shared constructor body succeeds iff the digit count is the required one; the barcode keeps the digits; otherwise `InvalidBarcodeLength{expected, got: dec_len}` |
| ScannerBarcode.NewEan13 | src/barcode_scanner/barcode.rs:36-45 | `ean13(d)` succeeds iff 10^12 <= d <= 10^13 - 1, keeps d, and otherwise returns `InvalidBarcodeLength{13, dec_len(d)}` |
| ScannerBarcode.NewEan8 | src/barcode_scanner/barcode.rs:47-56 | `ean8(d)` succeeds iff 10^7 <= d <= 10^8 - 1, keeps d, and otherwise returns `InvalidBarcodeLength{8, dec_len(d)}` |
| ScannerBarcode.GetDigits | src/barcode_scanner/barcode.rs:58-60 | the stored digits are never 0 |
| ScannerBarcode.GetType | src/barcode_scanner/barcode.rs:62-68 | for a value whose `u64` cast has 8 or 13 digits (the `unreachable!` arm is the precondition), the type is the one whose required length is that digit count |
| ScannerBarcode.ConstructorsRoundTrip | src/barcode_scanner/barcode.rs:58-68 | get_digits returns what a validating constructor was given, and get_type the symbology it was built for |
| ScannerBarcode.IsEanHasType | src/barcode_scanner/barcode.rs:62-68 | a validated barcode never reaches the `unreachable!` arm, and get_type is Ean8 exactly for 8 digits |
| ScannerBarcode.FromU64 | src/barcode_scanner/barcode.rs:75-81 | with 8 or 13 digits (the non-panicking case) `From<u64>` equals the matching constructor's result |
| ScannerBarcode.FromI64 | src/barcode_scanner/barcode.rs:88-90 | `From<i64>` succeeds only for positive values, which it keeps; negatives cast to 19 or 20 digits and panic |
| ScannerBarcode.TryFromResult | src/barcode_scanner/barcode.rs:96-103 | another format is `UnsupportedBarcodeType` whatever the text; an EAN tag with an unparsable text is `ParseBarcodeErr`; with a parsable text it is exactly `ean8`/`ean13` of the number (so a wrong length is `InvalidBarcodeLength`); successes are valid barcodes of the tag's length |
| ScannerBarcode.TryFromResultSpec | src/barcode_scanner/barcode.rs:96-103 | a decoder result becomes a barcode exactly when the tag is EAN and the text is an optional `+` and digits whose value has the tag's length; that value is stored |
| ScannerBarcode.TryFromDecimalText | src/barcode_scanner/barcode.rs:96-103 | for a decimal text, conversion equals `ean8`/`ean13` of its number |
| ScannerBarcode.LeadingZeroRejected | src/barcode_scanner/barcode.rs:97-100 | a 13-character EAN-13 text starting with 0 is rejected as too short (at most 12 digits) |
| ScannerBarcode.SomeBarcode | src/barcode_scanner/barcode.rs:110-112 | `some(b)` holds `Some(b)` |
| ScannerBarcode.NoBarcode | src/barcode_scanner/barcode.rs:114-116 | `none()` holds `None` |
| ScannerBarcode.FromOptionBarcode | src/barcode_scanner/barcode.rs:119-123 | `From<Option<Barcode>>` maps None to none() and Some(b) to some(b) |
| ScannerBarcode.FromOptionU64 | src/barcode_scanner/barcode.rs:119-123 | `From<Option<u64>>` keeps presence and converts each number to a valid barcode with the same digits |
| ScannerBarcode.Encode | src/barcode_scanner/barcode.rs:19-26 | the stored integer of a barcode is never 0 |
| ScannerBarcode.EncodeOption | src/barcode_scanner/barcode.rs:137-144 | an optional barcode is stored as NULL exactly when absent |
| ScannerBarcode.Decode | src/barcode_scanner/barcode.rs:147-153 | integer 0 decodes to no barcode; any other integer to a barcode with those digits, without a length check |
| ScannerBarcode.DecodeEncode | src/barcode_scanner/barcode.rs:147-153 | decode(encode(b)) = some(b) |
| ScannerBarcode.DecodeEncodeOption | src/barcode_scanner/barcode.rs:137-153 | a stored present barcode decodes back to itself |
| ScannerBarcode.DecodeSkipsValidation | src/barcode_scanner/barcode.rs:151-152 | a stored 5 decodes to a barcode that is not a valid EAN |
| BarcodeScanner.NextAsWritten | src/barcode_scanner/mod.rs:39-49 | the update with the u8 increment as written (wrapping): a miss and only a miss gives Zero |
| BarcodeScanner.RunAsWrittenCharacterization | src/barcode_scanner/mod.rs:39-49 | with the wrapping update, after any reads the state is Zero after a miss or no read, and otherwise Count(b, k mod 256) where b is the last read and k how many times in a row it was read |
| BarcodeScanner.Next | src/barcode_scanner/mod.rs:39-49 | a miss and only a miss gives Zero; a `Count` state names the barcode just read with a count of at least 1 |
| BarcodeScanner.RunCharacterization | src/barcode_scanner/mod.rs:39-49 | after any reads the state is Zero after a miss or no read, and otherwise Count(b, k) where b is the last read and k how many times in a row it was read (capped at 255) |
| BarcodeScanner.RunCountPositive | src/barcode_scanner/mod.rs:47 | every reachable `Count` has count >= 1 |
| BarcodeScanner.Confirmed | src/barcode_scanner/mod.rs:178-184 | a state confirms exactly when it is Count with count >= 3, and it confirms its barcode |
| BarcodeScanner.ConfirmedIffThreeInARow | src/barcode_scanner/mod.rs:178-184 | with the saturating count, the state confirms b exactly when the last three reads were all b |
| BarcodeScanner.ExampleThreeReads | src/barcode_scanner/mod.rs:178-184 | two reads of a confirm nothing; the third confirms a once |
| BarcodeScanner.ExampleRefires | src/barcode_scanner/mod.rs:178-184 | a fourth identical read confirms again |
| BarcodeScanner.ExampleSwitch | src/barcode_scanner/mod.rs:44-47 | [a, a, b, b, b] confirms b once and never a |
| BarcodeScanner.ExampleGap | src/barcode_scanner/mod.rs:42-47 | [a, miss, a, a, a] first confirms at the fifth read |
| BarcodeScanner.RunAsWrittenRepeat | src/barcode_scanner/mod.rs:45 | as written, n identical reads leave the count at n mod 256 |
| BarcodeScanner.OverflowAsWritten | src/barcode_scanner/mod.rs:45 | as written, 256 identical reads give Count(a, 0); reads 256 to 258 do not confirm, and read 259 confirms again |
| BarcodeScanner.SaturatingRepeat | src/barcode_scanner/mod.rs:44-46 | with the saturating count, n identical reads give Count(a, min(n, 255)) and confirm from the third on, indefinitely |
| BarcodeScanner.ScanCounter.constructor | src/barcode_scanner/mod.rs:159 | the counter starts at Zero |
| BarcodeScanner.ScanCounter.Update | src/barcode_scanner/mod.rs:39-49 | the new state is the transition of the old one on the read |
| BarcodeScanner.PlanFrame | src/barcode_scanner/mod.rs:56-87 | a frame is skipped iff its width or height is 0; otherwise the band has the frame's width and starts at 0 for heights up to 100, and lies inside the frame centred to within a pixel for taller ones |
| BarcodeScanner.ScanForBarcode | src/barcode_scanner/mod.rs:52-128 | skipped frame and decoder miss give Ok(None); a canvas failure is returned; a hit gives exactly the conversion's result: Ok(Some(b)) when the conversion gives b, and its error otherwise (unparsable or wrong-length text); successes are valid EANs |
| BarcodeScanner.RunScanner | src/barcode_scanner/mod.rs:161-184 | with the saturating count, over a tick sequence the consumer is called with exactly the confirmations of the successful scans' reads, and the errors are exactly the failed scans' errors, in order |
| BarcodeScanner.ObservationsAreEan | src/barcode_scanner/mod.rs:161-171 | every read reaching the debounce state is a valid EAN-8 or EAN-13 barcode |
| BarcodeScanner.FiresFromObservations | src/barcode_scanner/mod.rs:178-184 | every confirmed barcode was among the reads |
| BarcodeScanner.ConfirmedAreEan | src/barcode_scanner/mod.rs:178-184 | the consumer only ever receives valid EAN-8 or EAN-13 barcodes |
| SimpleBarcode.GetDigits | src/barcode.rs:27-29 | the digits are the whole barcode: rebuilding from them gives the barcode back |
| SimpleBarcode.NewEan13 | src/barcode.rs:15-19 | under the asserted 13 digits the value is kept and its type is Ean13 |
| SimpleBarcode.NewEan8 | src/barcode.rs:21-25 | under the asserted 8 digits the value is kept and its type is Ean8 |
| SimpleBarcode.GetType | src/barcode.rs:31-37 | for 8 or 13 digits, Ean8 exactly on 10^7..10^8-1 and Ean13 exactly on 10^12..10^13-1 |
| SimpleBarcode.NewEan13Domain | src/barcode.rs:16 | the assertion holds exactly for 10^12 <= d < 10^13 |
| SimpleBarcode.NewEan8Domain | src/barcode.rs:22 | the assertion holds exactly for 10^7 <= d < 10^8 |
| Languages.Short | src/language/mod.rs:22-28 | English's code is "en" and German's "de", and the codes differ |
| Languages.Default | src/language/mod.rs:38-42 | the default language is English |
| Languages.ToString | src/language/mod.rs:70-77 | English displays as "English" and German as "Deutsch" |
| Languages.TryFromString | src/language/mod.rs:45-57 | exactly "English", "Deutsch", "en" and "de" are accepted, mapping to the right language; any other string is an error naming it |
| Languages.TryFromOption | src/language/mod.rs:59-68 | None is the "`None` provided as language" error; Some(s) gives exactly the result of parsing s, so it is accepted exactly on the four names |
| Languages.FromCookies | src/language/mod.rs:30-34 | a language is found exactly when the "language" cookie exists and holds one of the four names, and it is that name's language |
| Languages.ShortRoundTrip | src/language/mod.rs:22-28 | parsing a language's code gives the language |
| Languages.ToStringRoundTrip | src/language/mod.rs:70-77 | parsing a language's display name gives the language |
| Languages.AcceptedAreNames | src/language/mod.rs:49-55 | every accepted string is the code or the display name of the language it gives |
| Languages.CookieRoundTrip | src/language/mod.rs:30-34 | get_cookie on a cookie header holding "language=" and the display name that `set_language` stores (src/language/context.rs:29-31), alone or before other cookies, gives back the language |
| LanguageTag.Default | src/language.rs:3-7 | the default is English |
| LanguageTag.TryFromStr | src/language.rs:17-28 | accepted exactly for "en" and strings starting with "en-"; the error is the input unchanged |
| LanguageTag.New | src/language.rs:9-15 | Some exactly when the parse succeeds, i.e. for "en" and "en-" prefixes |
| LanguageTag.CaseSensitive | src/language.rs:20-26 | "EN", "en_US", "english" and "" are rejected |
| LanguageTag.RegionTagsAccepted | src/language.rs:23 | every "en-" tag, including "en-" itself, gives English |
| ItemList.Position | src/list.rs:31 | the index found is the first item with the id, and none is found exactly when no item has it |
| ItemList.RemoveFirstAbsent | src/list.rs:31 | with no item carrying the id the list is unchanged |
| ItemList.RemoveFirstAt | src/list.rs:31-32 | with the first match at i, exactly element i is removed and all others keep their order |
| ItemList.RemoveFirstLength | src/list.rs:31-32 | removal shortens the list by one exactly when the id is present |
| ItemList.List.constructor | src/list.rs:14-15 | the default list is empty |
| ItemList.List.LocalRemoveId | src/list.rs:30-33 | the new items are the old ones with the first match removed |
| ShoppingList.Retain | src/list/mod.rs:134 | no kept item has the id, and nothing is added |
| ShoppingList.RetainAppend | src/list/mod.rs:134 | retaining distributes over concatenation, so relative order is kept |
| ShoppingList.RetainMembers | src/list/mod.rs:134 | an item survives exactly when it was present and has a different id |
| ShoppingList.RetainLength | src/list/mod.rs:134 | exactly the items carrying the id are dropped |
| ShoppingList.RetainAbsent | src/list/mod.rs:134 | removal is a no-op exactly when no item has the id |
| ShoppingList.RetainIdempotent | src/list/mod.rs:134 | removing twice equals removing once |
| ShoppingList.RemoveFirstIsRetainIff | src/list/mod.rs:133-135 | the first-match removal of src/list.rs and this all-matches removal agree exactly when at most one item has the id |
| ShoppingList.List.constructor | src/list/mod.rs:121-123 | the list starts with the loaded items |
| ShoppingList.List.Add | src/list/mod.rs:125-127 | the item is appended at the end |
| ShoppingList.List.Remove | src/list/mod.rs:133-135 | the new items are the old ones with every item of the id removed |
| ShoppingList.Serialize | src/list/mod.rs:143-145 | one serialized record per item, position by position |
| ShoppingList.Deserialize | src/list/mod.rs:147-152 | one item per stored record, position by position |
| ShoppingList.ListSerializedFrom | src/list/mod.rs:192-196 | the serialized list has one record per item, position by position |
| ShoppingList.DeserializeSerialize | src/list/mod.rs:143-152 | when the per-item conversions invert each other, loading what was stored gives the list back |
| ShoppingList.SerializeAppend | src/list/mod.rs:143-145 | serialization follows concatenation |
| Cookies.Split | src/util/mod.rs:63 | splitting yields at least one piece |
| Cookies.JoinSplit | src/util/mod.rs:63 | joining the pieces with "; " gives the cookie string back |
| Cookies.SplitPiecesFree | src/util/mod.rs:63 | no piece contains "; " |
| Cookies.StripPrefix | src/util/mod.rs:64 | the prefix is stripped exactly when the piece starts with it, and prefix + rest is the piece |
| Cookies.FindMapStripPrefix | src/util/mod.rs:64 | None exactly when no piece starts with the prefix; otherwise the rest of the first such piece |
| Cookies.GetCookie | src/util/mod.rs:57-66 | no cookie string gives None; otherwise the text after "name=" in the first piece starting with it |
| Cookies.SetCookie | src/util/mod.rs:77 | the cookie string is "key=" followed by exactly the value and "; Path=/" |
| Cookies.FirstOccurrenceWins | src/util/mod.rs:64 | when "name=value" comes first, its value is returned whatever follows |
| Cookies.NonMatchingPieceSkipped | src/util/mod.rs:64 | a piece not starting with the whole "name=" (as "xname=1" or "names=1") is skipped |
| Cookies.GetSetCookie | src/util/mod.rs:57-77 | get_cookie applied to the string set_cookie formats gives the value, when "key=value" has no "; " |
| Cookies.ValueKeptVerbatim | src/util/mod.rs:64-65 | "a=" gives Some("") and "a=b=c" gives Some("b=c") |
| ItemAmount.ItemCount.constructor | src/item/count.rs:4-5 | the cell holds the amount it is given |
| ItemAmount.ItemCount.Inc | src/item/count.rs:6 | the amount is incremented, saturating at u64::MAX |
| ItemAmount.ItemCount.Dec | src/item/count.rs:7 | the amount is decremented, saturating at 0 |
| ItemAmount.ItemCount.Change | src/item/count.rs:16-18 | the amount becomes the parsed `u64`, or stays when the text does not parse |
| ItemCounter.ItemCount.constructor | src/item_count.rs:5 | the count starts at 0 |
| ItemCounter.ItemCount.Inc | src/item_count.rs:6 | the count is incremented, saturating at u32::MAX |
| ItemCounter.ItemCount.Dec | src/item_count.rs:7 | the count is decremented, saturating at 0 |
| ItemCounter.ItemCount.Change | src/item_count.rs:15-17 | the count becomes the parsed `u32`, or stays when the text does not parse |
| Popup.PopupSignal.constructor | src/popup.rs:32-34 | a new popup is closed |
| Popup.PopupSignal.Open | src/popup.rs:36-38 | afterwards the popup is open, whatever it was (so opening twice is opening once) |
| Popup.PopupSignal.Close | src/popup.rs:40-42 | afterwards the popup is closed, whatever it was (so closing twice is closing once) |
| Popup.PopupSignal.Toggle | src/popup.rs:44-46 | the open state is negated |
| Popup.PopupSignal.IsOpen | src/popup.rs:48-50 | reads the flag (a function, so it changes nothing) |
| Popup.ToggleTwice | src/popup.rs:44-46 | two toggles restore the state |
| ImgPopup.ImgPopup.constructor | src/img_popup.rs:4-5 | the default holds no URL and is closed |
| ImgPopup.ImgPopup.Open | src/img_popup.rs:12-16 | the URL is stored, replacing any previous one, and the popup is open |
| ImgPopup.ImgPopup.Close | src/img_popup.rs:18-22 | no URL is left and the popup is closed, whatever it was |
| ImgPopup.ImgPopup.IsOpen | src/img_popup.rs:24-26 | open exactly when a URL is stored |

## Left out

- Camera acquisition and teardown (src/camera.rs) are browser I/O and async code. Camera errors appear only as a `BarcodeError` variant carrying text.
- Canvas drawing, pixel reads, luminance conversion and the symbol decoder are foreign calls. A frame's render failure and the decoder's answer are inputs of `BarcodeScanner.Frame`.
- Interval timers, `on_cleanup` and effect scheduling are not modelled. The ticks are an explicit sequence, and a tick whose video or canvas element is missing is a `Tick` with `mounted` false.
- Error payloads that are JavaScript values (`JsValue`) or `anyhow` errors are modelled as strings. A `ParseIntError` is modelled as its kind.
- The error signal's display and logging are not modelled, nor is the component's reaction to an error. `RunScanner` returns the errors in order.
- The server-side branch of `get_cookie` and the I/O of `set_cookie` are left out, since they need an actix request and document access. A `document.cookie` read that fails is the `None` input.
- Cookies.GetCookie: the `expect` on the HTML document is taken to succeed on the client.
- The browser's cookie store is not modelled. It drops attributes such as `Path` from what `document.cookie` returns and decides the order of the cookies; `Languages.CookieRoundTrip` takes a header in that read-back form as its input.
- Loading the list from and saving it to browser storage is not modelled. `ShoppingList.List.constructor` takes the loaded items as its argument.
- The per-item conversions `ItemSerialized::from` and `Item::from_serialized` are left out; their bodies live in the item module, which is not part of this model. They are function parameters.
- Items are reduced to their id plus an opaque payload.
- The reactive wrappers, optimistic server sync, OpenFoodFacts lookups, database and server functions, localisation dictionaries, the service worker and the pure UI components are not part of this model.
- `ShowNewItem::toggle` behaves as `PopupSignal::toggle` and is not modelled separately.
- No EAN check-digit validation is modelled, because the code has none.
- The warning that `language.rs`'s `new` logs for an unknown tag is not modelled. The log output is I/O.
- BarcodeScanner.ScanCounter.Update: it saturates the count at 255. The code's `u8` increment wraps in a release build and panics in a debug build; see the finding below.
- BarcodeScanner.Next: it likewise saturates instead of wrapping; `NextAsWritten` is the wrapping version.
- Panics are modelled as preconditions: `ScannerBarcode.GetType`'s `unreachable!` (src/barcode_scanner/barcode.rs:66), which `ScannerBarcode.FromU64` and `ScannerBarcode.FromI64` inherit, the `assert!`s of `SimpleBarcode.NewEan13` and `SimpleBarcode.NewEan8` (src/barcode.rs:16, 22), and `SimpleBarcode.GetType`'s `unreachable!` (src/barcode.rs:35).
- The `f64` conversions of the band geometry are not modelled. They are exact for `u32` values, so `PlanFrame` works on integers.

## Findings

| source | as written | input that shows it | evidently intended | confidence | as-written member | corrected member |
|---|---|---|---|---|---|---|
| src/barcode_scanner/mod.rs:45 | `count + 1` on a `u8` count of identical reads | 256 consecutive identical reads, at least 12.8 s of holding one barcode in view at one scan per 50 ms. A release build wraps to `Count(a, 0)`, skips confirmation on reads 256 to 258 and confirms again from read 259; a debug build panics at read 256 | the count never overflows, so a held barcode is confirmed on every tick from the third read on. The defect is latent in this repository: both consumers close the popup at the first confirmation (src/item.rs:100-103, src/item/mod.rs:83-86), and a closed popup no longer renders the scanner (src/popup.rs:19-21), so the count does not get past 3 there | not executed | BarcodeScanner.OverflowAsWritten | BarcodeScanner.SaturatingRepeat |

=== FILE: barcode_scanner.dfy ===
/**
 * The barcode scanner component (src/barcode_scanner/mod.rs) with the
 * camera, the canvas and the decoder taken out: each timer tick brings
 * the frame size, the outcome of drawing the frame band and the decoder's
 * answer for it as plain values.
 *
 * The debounce state `ScanCount` counts identical consecutive reads; the
 * component reports a barcode to its consumer on every successful scan
 * that leaves the count at `NEEDED_SCAN_COUNT` or more. A failed scan or
 * a tick without the video and canvas elements leaves the count as it is
 * and reports nothing.
 */
module BarcodeScanner {
  import opened Wrappers
  import opened Numeric
  import opened ScannerBarcode

  const NEEDED_SCAN_COUNT: nat := 3
  const CANVAS_HEIGHT: nat := 100

  datatype ScanCount = Zero | Count(barcode: Barcode, count: U8)

  function Min(a: int, b: int): int {
    if a <= b then a else b
  }

  // ---------------------------------------------------------------------
  // The debounce transition

  /**
   * `ScanCount::update` as written: `count + 1` on a `u8`, which wraps to
   * 0 in a release build (and panics in a debug build) once a barcode has
   * been read 256 times in a row.
   */
  function NextAsWritten(s: ScanCount, next: Option<Barcode>): (t: ScanCount)
    ensures next.None? <==> t == Zero
  {
    match next
    case None => Zero
    case Some(b) =>
      if s.Count? && s.barcode == b then Count(b, (s.count + 1) % 256) else Count(b, 1)
  }

  /**
   * `ScanCount::update` with the increment saturating at 255, the
   * behaviour the rest of the model uses: a miss resets, the same barcode
   * counts up, a different one starts over at 1.
   */
  function Next(s: ScanCount, next: Option<Barcode>): (t: ScanCount)
    ensures next.None? <==> t == Zero
    ensures t.Count? ==> t.count >= 1 && next == Some(t.barcode)
  {
    match next
    case None => Zero
    case Some(b) =>
      if s.Count? && s.barcode == b then Count(b, Min(s.count + 1, U8_MAX)) else Count(b, 1)
  }

  /** The state after a sequence of observations, starting from `Zero`. */
  function Run(obs: seq<Option<Barcode>>): ScanCount
  {
    if obs == [] then Zero else Next(Run(obs[..|obs| - 1]), obs[|obs| - 1])
  }

  function RunAsWritten(obs: seq<Option<Barcode>>): ScanCount
  {
    if obs == [] then Zero else NextAsWritten(RunAsWritten(obs[..|obs| - 1]), obs[|obs| - 1])
  }

  /** How many of the last observations are `Some(b)`, counted back to the first that is not. */
  function TrailingRun(obs: seq<Option<Barcode>>, b: Barcode): nat
  {
    if obs == [] || obs[|obs| - 1] != Some(b) then 0 else 1 + TrailingRun(obs[..|obs| - 1], b)
  }

  /**
   * The meaning of the state: `Zero` after no observation or a miss, and
   * otherwise `Count(b, k)` where b is the last barcode read and k how many
   * times in a row it was read (capped at 255).
   */
  lemma {:induction false} RunCharacterization(obs: seq<Option<Barcode>>)
    ensures obs == [] || obs[|obs| - 1].None? ==> Run(obs) == Zero
    ensures obs != [] && obs[|obs| - 1].Some? ==>
              var b := obs[|obs| - 1].value;
              Run(obs) == Count(b, Min(TrailingRun(obs, b), U8_MAX))
    decreases |obs|
  {
    if obs != [] && obs[|obs| - 1].Some? {
      var init := obs[..|obs| - 1];
      var b := obs[|obs| - 1].value;
      RunCharacterization(init);
      if init != [] && init[|init| - 1] == Some(b) {
        assert TrailingRun(init, b) >= 1;
      } else {
        assert TrailingRun(init, b) == 0;
      }
    }
  }

  /**
   * The meaning of the state as written: as in `RunCharacterization`, but
   * the count of identical reads is taken modulo 256.
   */
  lemma {:induction false} RunAsWrittenCharacterization(obs: seq<Option<Barcode>>)
    ensures obs == [] || obs[|obs| - 1].None? ==> RunAsWritten(obs) == Zero
    ensures obs != [] && obs[|obs| - 1].Some? ==>
              var b := obs[|obs| - 1].value;
              RunAsWritten(obs) == Count(b, TrailingRun(obs, b) % 256)
    decreases |obs|
  {
    if obs != [] && obs[|obs| - 1].Some? {
      var init := obs[..|obs| - 1];
      var b := obs[|obs| - 1].value;
      RunAsWrittenCharacterization(init);
      if init != [] && init[|init| - 1] == Some(b) {
        assert TrailingRun(init, b) >= 1;
        WrapStep(TrailingRun(obs, b));
      } else {
        assert TrailingRun(init, b) == 0;
      }
    }
  }

  /** A trailing run of at least k means the last k observations are all `Some(b)`. */
  lemma {:induction false} TrailingRunSpec(obs: seq<Option<Barcode>>, b: Barcode, k: nat)
    ensures TrailingRun(obs, b) >= k <==>
              k <= |obs| && forall i :: |obs| - k <= i < |obs| ==> obs[i] == Some(b)
    decreases |obs|
  {
    if k > 0 && obs != [] {
      var init := obs[..|obs| - 1];
      TrailingRunSpec(init, b, k - 1);
      if obs[|obs| - 1] == Some(b) && k - 1 <= |init| && forall i :: |init| - (k - 1) <= i < |init| ==> init[i] == Some(b) {
        forall i | |obs| - k <= i < |obs|
          ensures obs[i] == Some(b)
        {
          if i < |obs| - 1 {
            assert obs[i] == init[i];
          }
        }
      }
      if k <= |obs| && forall i :: |obs| - k <= i < |obs| ==> obs[i] == Some(b) {
        assert obs[|obs| - 1] == Some(b);
        forall i | |init| - (k - 1) <= i < |init|
          ensures init[i] == Some(b)
        {
          assert init[i] == obs[i];
        }
      }
    }
  }

  /** Every count the state machine reaches is at least 1. */
  lemma RunCountPositive(obs: seq<Option<Barcode>>)
    ensures Run(obs).Count? ==> Run(obs).count >= 1
  {
    if obs != [] {
      RunCharacterization(obs);
    }
  }

  // ---------------------------------------------------------------------
  // Confirmation

  /** The effect on `barcode_count`: a barcode is handed to `set_barcode` when its count is at least 3. */
  function Confirmed(s: ScanCount): (r: Option<Barcode>)
    ensures r.Some? <==> s.Count? && s.count >= NEEDED_SCAN_COUNT
    ensures r.Some? ==> r.value == s.barcode
  {
    if s.Count? && s.count >= NEEDED_SCAN_COUNT then Some(s.barcode) else None
  }

  /** The state confirms b exactly when the last three observations were all b. */
  lemma ConfirmedIffThreeInARow(obs: seq<Option<Barcode>>, b: Barcode)
    ensures Confirmed(Run(obs)) == Some(b) <==>
              |obs| >= 3 && obs[|obs| - 1] == obs[|obs| - 2] == obs[|obs| - 3] == Some(b)
  {
    RunCharacterization(obs);
    TrailingRunSpec(obs, b, 3);
    if |obs| >= 3 && obs[|obs| - 1] == obs[|obs| - 2] == obs[|obs| - 3] == Some(b) {
      assert forall i :: |obs| - 3 <= i < |obs| ==> obs[i] == Some(b);
    }
  }

  /** The barcodes handed to the consumer, one per tick whose state confirms. */
  function Fires(obs: seq<Option<Barcode>>): seq<Barcode>
  {
    if obs == [] then []
    else Fires(obs[..|obs| - 1]) + match Confirmed(Run(obs)) { case Some(b) => [b] case None => [] }
  }

  /** Fires and Run on one more observation. */
  lemma FiresSnoc(obs: seq<Option<Barcode>>, o: Option<Barcode>)
    ensures Run(obs + [o]) == Next(Run(obs), o)
    ensures Fires(obs + [o]) == Fires(obs) + match Confirmed(Next(Run(obs), o)) { case Some(b) => [b] case None => [] }
  {
    assert (obs + [o])[..|obs|] == obs;
  }

  /** Three reads of A confirm A once, at the third. */
  lemma ExampleThreeReads(a: Barcode)
    ensures Fires([Some(a), Some(a)]) == []
    ensures Fires([Some(a), Some(a), Some(a)]) == [a]
  {
    var A := Some(a);
    FiresSnoc([], A);
    assert [] + [A] == [A];
    FiresSnoc([A], A);
    assert [A] + [A] == [A, A];
    FiresSnoc([A, A], A);
    assert [A, A] + [A] == [A, A, A];
  }

  /** A fourth identical read confirms again: confirmation is not edge-triggered. */
  lemma ExampleRefires(a: Barcode)
    ensures Fires([Some(a), Some(a), Some(a), Some(a)]) == [a, a]
  {
    var A := Some(a);
    ExampleThreeReads(a);
    FiresSnoc([A, A, A], A);
    assert [A, A, A] + [A] == [A, A, A, A];
    ConfirmedIffThreeInARow([A, A, A, A], a);
  }

  /** [A, A, B, B, B] confirms B at the fifth read and never A. */
  lemma ExampleSwitch(a: Barcode, b: Barcode)
    requires a != b
    ensures Fires([Some(a), Some(a), Some(b), Some(b), Some(b)]) == [b]
  {
    var A, B := Some(a), Some(b);
    FiresSnoc([], A);
    assert [] + [A] == [A];
    FiresSnoc([A], A);
    assert [A] + [A] == [A, A];
    FiresSnoc([A, A], B);
    assert [A, A] + [B] == [A, A, B];
    FiresSnoc([A, A, B], B);
    assert [A, A, B] + [B] == [A, A, B, B];
    FiresSnoc([A, A, B, B], B);
    assert [A, A, B, B] + [B] == [A, A, B, B, B];
  }

  /** [A, None, A, A, A] confirms A only at the fifth read: the gap resets the count. */
  lemma ExampleGap(a: Barcode)
    ensures Fires([Some(a), None, Some(a), Some(a), Some(a)]) == [a]
  {
    var A: Option<Barcode>, N: Option<Barcode> := Some(a), None;
    FiresSnoc([], A);
    assert [] + [A] == [A];
    FiresSnoc([A], N);
    assert [A] + [N] == [A, N];
    FiresSnoc([A, N], A);
    assert [A, N] + [A] == [A, N, A];
    FiresSnoc([A, N, A], A);
    assert [A, N, A] + [A] == [A, N, A, A];
    FiresSnoc([A, N, A, A], A);
    assert [A, N, A, A] + [A] == [A, N, A, A, A];
  }

  function Repeat(x: Option<Barcode>, n: nat): (s: seq<Option<Barcode>>)
    ensures |s| == n && forall i :: 0 <= i < n ==> s[i] == x
  {
    if n == 0 then [] else Repeat(x, n - 1) + [x]
  }

  /** As written, n identical reads leave the count at n modulo 256. */
  lemma {:induction false} RunAsWrittenRepeat(a: Barcode, n: nat)
    requires n >= 1
    ensures RunAsWritten(Repeat(Some(a), n)) == Count(a, n % 256)
  {
    if n > 1 {
      RunAsWrittenRepeat(a, n - 1);
      assert Repeat(Some(a), n)[..n - 1] == Repeat(Some(a), n - 1);
      WrapStep(n);
    }
  }

  /** Adding one modulo 256 to the count of n - 1 reads gives the count of n. */
  lemma WrapStep(n: nat)
    requires n >= 1
    ensures ((n - 1) % 256 + 1) % 256 == n % 256
  {
    var q, r := (n - 1) / 256, (n - 1) % 256;
    assert n == 256 * q + r + 1;
    if r < 255 {
      assert n % 256 == r + 1;
    } else {
      assert n == 256 * (q + 1);
    }
  }

  /**
   * The overflow: after 256 identical reads the written-out update leaves
   * `Count(a, 0)`, a count of zero for a barcode just seen. Reads 256, 257
   * and 258 do not call the consumer although the last three reads were a;
   * the count is back at 3 on read 259 and confirming resumes.
   */
  lemma OverflowAsWritten(a: Barcode)
    ensures RunAsWritten(Repeat(Some(a), 256)) == Count(a, 0)
    ensures Confirmed(RunAsWritten(Repeat(Some(a), 256))).None?
    ensures Confirmed(RunAsWritten(Repeat(Some(a), 257))).None?
    ensures Confirmed(RunAsWritten(Repeat(Some(a), 258))).None?
    ensures Confirmed(RunAsWritten(Repeat(Some(a), 259))) == Some(a)
  {
    RunAsWrittenRepeat(a, 256);
    RunAsWrittenRepeat(a, 257);
    RunAsWrittenRepeat(a, 258);
    RunAsWrittenRepeat(a, 259);
  }

  lemma {:induction false} TrailingRunAtMost(obs: seq<Option<Barcode>>, b: Barcode)
    ensures TrailingRun(obs, b) <= |obs|
    decreases |obs|
  {
    if obs != [] {
      TrailingRunAtMost(obs[..|obs| - 1], b);
    }
  }

  /** With the saturating update, any number of identical reads keeps confirming. */
  lemma SaturatingRepeat(a: Barcode, n: nat)
    requires n >= 1
    ensures Run(Repeat(Some(a), n)) == Count(a, Min(n, U8_MAX))
    ensures n >= NEEDED_SCAN_COUNT ==> Confirmed(Run(Repeat(Some(a), n))) == Some(a)
  {
    var obs := Repeat(Some(a), n);
    RunCharacterization(obs);
    TrailingRunSpec(obs, a, n);
    TrailingRunAtMost(obs, a);
    assert TrailingRun(obs, a) == n;
  }

  /** `ScanCount` as the component holds it: a cell updated once per successful scan. */
  class ScanCounter {
    var state: ScanCount

    constructor ()
      ensures state == Zero
    {
      state := Zero;
    }

    method Update(next: Option<Barcode>)
      modifies this
      ensures state == Next(old(state), next)
    {
      state := match (state, next) {
        case (_, None) => Zero
        case (Count(kind, count), Some(b)) =>
          if kind == b then Count(kind, Min(count + 1, U8_MAX)) else Count(b, 1)
        case (_, Some(b)) => Count(b, 1)
      };
    }
  }

  // ---------------------------------------------------------------------
  // One frame

  /** What a tick does with a frame: skip it, or crop the band starting `sourceY` rows down. */
  datatype FramePlan = SkipFrame | CropBand(width: U32, sourceY: nat)

  /**
   * The pure part of `scan_for_barcode`: a frame of zero width or height is
   * skipped; otherwise the band is `width` x 100 pixels starting at
   * `height.saturating_sub(100) / 2`.
   */
  function PlanFrame(width: U32, height: U32): (p: FramePlan)
    ensures p.SkipFrame? <==> width == 0 || height == 0
    ensures p.CropBand? ==> p.width == width
    ensures p.CropBand? && height <= CANVAS_HEIGHT ==> p.sourceY == 0
    ensures p.CropBand? && height >= CANVAS_HEIGHT ==>
              p.sourceY + CANVAS_HEIGHT <= height
              && 0 <= (height - CANVAS_HEIGHT - p.sourceY) - p.sourceY <= 1
  {
    if width == 0 || height == 0 then SkipFrame
    else
      var spare := if height >= CANVAS_HEIGHT then height - CANVAS_HEIGHT else 0;
      CropBand(width, spare / 2)
  }

  /**
   * One frame as the environment presents it: the video size, the first
   * failure (if any) of getting the 2d context, drawing the band or reading
   * its pixels, and what the decoder found in the band.
   */
  datatype Frame = Frame(width: U32, height: U32, renderFailure: Option<RenderError>, decoded: Option<BarcodeResult>)

  /**
   * The errors the canvas steps raise: no 2d context (or a context that is
   * not a `CanvasRenderingContext2d`), a failed draw, a failed pixel read.
   */
  type RenderError = e: BarcodeError | e.GetCanvasContextErr? || e.JsDynCastError? || e.DrawImgErr? || e.GetImgDataErr?
    witness GetCanvasContextErr

  /**
   * `scan_for_barcode`: `Ok(None)` for a skipped frame or a decoder miss,
   * the canvas error if drawing fails, and otherwise the decoded result
   * converted with `Barcode::try_from`.
   */
  function ScanForBarcode(frame: Frame): (r: Result<Option<Barcode>, BarcodeError>)
    ensures PlanFrame(frame.width, frame.height).SkipFrame? ==> r == Ok(None)
    ensures PlanFrame(frame.width, frame.height).CropBand? && frame.renderFailure.Some? ==>
              r == Err(frame.renderFailure.value)
    ensures PlanFrame(frame.width, frame.height).CropBand? && frame.renderFailure.None? && frame.decoded.None? ==>
              r == Ok(None)
    ensures r.Ok? && r.value.Some? ==>
              frame.decoded.Some? && TryFromResult(frame.decoded.value) == Ok(r.value.value) && IsEan(r.value.value)
    ensures PlanFrame(frame.width, frame.height).CropBand? && frame.renderFailure.None? && frame.decoded.Some? ==>
              (r.Err? <==> TryFromResult(frame.decoded.value).Err?)
    ensures r.Err? && frame.renderFailure.None? ==>
              frame.decoded.Some? && r.error == TryFromResult(frame.decoded.value).error
    ensures PlanFrame(frame.width, frame.height).CropBand? && frame.renderFailure.None? && frame.decoded.Some?
            && TryFromResult(frame.decoded.value).Ok? ==>
              r == Ok(Some(TryFromResult(frame.decoded.value).value))
  {
    match PlanFrame(frame.width, frame.height)
    case SkipFrame => Ok(None)
    case CropBand(_, _) =>
      match frame.renderFailure
      case Some(e) => Err(e)
      case None =>
        match frame.decoded
        case None => Ok(None)
        case Some(result) =>
          match TryFromResult(result)
          case Ok(b) => Ok(Some(b))
          case Err(e) => Err(e)
  }

  // ---------------------------------------------------------------------
  // The timer loop

  /** One 50 ms tick: whether the video and canvas elements exist, and the frame. */
  datatype Tick = Tick(mounted: bool, frame: Frame)

  /** The reads that reach the debounce state: one per mounted tick whose scan succeeded. */
  function Observations(ticks: seq<Tick>): seq<Option<Barcode>>
  {
    if ticks == [] then []
    else
      var last := ticks[|ticks| - 1];
      Observations(ticks[..|ticks| - 1]) +
        if last.mounted && ScanForBarcode(last.frame).Ok? then [ScanForBarcode(last.frame).value] else []
  }

  /** The errors handed to the error signal, one per mounted tick whose scan failed. */
  function Errors(ticks: seq<Tick>): seq<BarcodeError>
  {
    if ticks == [] then []
    else
      var last := ticks[|ticks| - 1];
      Errors(ticks[..|ticks| - 1]) +
        if last.mounted && ScanForBarcode(last.frame).Err? then [ScanForBarcode(last.frame).error] else []
  }

  /** Observations and Errors of one more tick. */
  lemma TicksSnoc(ticks: seq<Tick>, i: nat)
    requires i < |ticks|
    ensures Observations(ticks[..i + 1]) == Observations(ticks[..i]) +
              if ticks[i].mounted && ScanForBarcode(ticks[i].frame).Ok? then [ScanForBarcode(ticks[i].frame).value] else []
    ensures Errors(ticks[..i + 1]) == Errors(ticks[..i]) +
              if ticks[i].mounted && ScanForBarcode(ticks[i].frame).Err? then [ScanForBarcode(ticks[i].frame).error] else []
  {
    assert ticks[..i + 1][..i] == ticks[..i];
  }

  /**
   * The interval callback run over a sequence of ticks, with the effect that
   * calls `set_barcode` after each update: the returned `confirmed` are the
   * consumer's calls in order, `errors` what reached the error signal.
   */
  method RunScanner(ticks: seq<Tick>) returns (confirmed: seq<Barcode>, errors: seq<BarcodeError>)
    ensures confirmed == Fires(Observations(ticks))
    ensures errors == Errors(ticks)
  {
    var counter := new ScanCounter();
    confirmed, errors := [], [];
    for i := 0 to |ticks|
      invariant counter.state == Run(Observations(ticks[..i]))
      invariant confirmed == Fires(Observations(ticks[..i]))
      invariant errors == Errors(ticks[..i])
    {
      var tick := ticks[i];
      TicksSnoc(ticks, i);
      if tick.mounted {
        match ScanForBarcode(tick.frame)
        case Ok(barcode) =>
          FiresSnoc(Observations(ticks[..i]), barcode);
          counter.Update(barcode);
          assert Observations(ticks[..i + 1]) == Observations(ticks[..i]) + [barcode];
          assert counter.state == Run(Observations(ticks[..i + 1]));
          match Confirmed(counter.state) {
            case Some(b) => confirmed := confirmed + [b];
            case None =>
          }
          assert confirmed == Fires(Observations(ticks[..i + 1]));
        case Err(e) =>
          errors := errors + [e];
          assert Observations(ticks[..i + 1]) == Observations(ticks[..i]);
      } else {
        assert Observations(ticks[..i + 1]) == Observations(ticks[..i]);
      }
    }
    assert ticks[..|ticks|] == ticks;
  }

  /** Every read that reaches the debounce state is a valid EAN barcode. */
  lemma {:induction false} ObservationsAreEan(ticks: seq<Tick>)
    ensures forall o :: o in Observations(ticks) && o.Some? ==> IsEan(o.value)
    decreases |ticks|
  {
    if ticks != [] {
      ObservationsAreEan(ticks[..|ticks| - 1]);
    }
  }

  /** Every barcode handed to the consumer was among the reads. */
  lemma {:induction false} FiresFromObservations(obs: seq<Option<Barcode>>)
    ensures forall b :: b in Fires(obs) ==> Some(b) in obs
    decreases |obs|
  {
    if obs != [] {
      var init := obs[..|obs| - 1];
      FiresFromObservations(init);
      RunCharacterization(obs);
      forall b | b in Fires(obs)
        ensures Some(b) in obs
      {
        if b in Fires(init) {
          assert Some(b) in init;
        } else {
          assert obs[|obs| - 1] == Some(b);
        }
      }
    }
  }

  /** So the consumer only ever receives valid EAN-8 or EAN-13 barcodes. */
  lemma ConfirmedAreEan(ticks: seq<Tick>)
    ensures forall b :: b in Fires(Observations(ticks)) ==> IsEan(b)
  {
    ObservationsAreEan(ticks);
    FiresFromObservations(Observations(ticks));
  }
}

=== FILE: cookies.dfy ===
/**
 * Cookie strings (src/util/mod.rs). On the client, `get_cookie` reads
 * `document.cookie` ("name1=val1; name2=val2"), splits it on "; " and
 * returns what follows "name=" in the first piece that starts with it.
 * `set_cookie` formats "key=value; Path=/".
 */
module Cookies {
  import opened Wrappers

  const SEPARATOR: string := "; "

  /** `sep` occurs in `s` at position j. */
  predicate SepAt(s: string, sep: string, j: nat) {
    j + |sep| <= |s| && s[j..j + |sep|] == sep
  }

  /** The first position of `sep` in `s`, as `str::find` gives it. */
  function IndexOf(s: string, sep: string): (r: Option<nat>)
    requires |sep| > 0
    ensures r.Some? ==> SepAt(s, sep, r.value) && forall j :: 0 <= j < r.value ==> !SepAt(s, sep, j)
    ensures r.None? ==> forall j :: 0 <= j ==> !SepAt(s, sep, j)
    decreases |s|
  {
    if |s| < |sep| then None
    else if s[..|sep|] == sep then Some(0)
    else
      match IndexOf(s[1..], sep)
      case None =>
        assert forall j :: 1 <= j ==> SepAt(s, sep, j) ==> SepAt(s[1..], sep, j - 1);
        None
      case Some(i) =>
        assert SepAt(s, sep, i + 1) by {
          assert s[i + 1..i + 1 + |sep|] == s[1..][i..i + |sep|];
        }
        assert forall j :: 1 <= j ==> SepAt(s, sep, j) ==> SepAt(s[1..], sep, j - 1);
        Some(i + 1)
  }

  /** `str::split` with a non-empty string pattern: the pieces between non-overlapping matches, left to right. */
  function Split(s: string, sep: string): (parts: seq<string>)
    requires |sep| > 0
    ensures |parts| >= 1
    decreases |s|
  {
    match IndexOf(s, sep)
    case None => [s]
    case Some(i) => [s[..i]] + Split(s[i + |sep|..], sep)
  }

  /** The inverse of Split: the pieces with `sep` between them. */
  function Join(parts: seq<string>, sep: string): string
    requires |parts| >= 1
  {
    if |parts| == 1 then parts[0] else parts[0] + sep + Join(parts[1..], sep)
  }

  /** Splitting loses nothing: joining the pieces back gives the input. */
  lemma {:induction false} JoinSplit(s: string, sep: string)
    requires |sep| > 0
    ensures Join(Split(s, sep), sep) == s
    decreases |s|
  {
    var r := IndexOf(s, sep);
    if r.Some? {
      var i := r.value;
      var rest := s[i + |sep|..];
      JoinSplit(rest, sep);
      var tail := Split(rest, sep);
      assert Split(s, sep) == [s[..i]] + tail;
      JoinCons(s[..i], tail, sep);
      SliceAround(s, sep, i);
    }
  }

  lemma JoinCons(head: string, tail: seq<string>, sep: string)
    requires |tail| >= 1
    ensures Join([head] + tail, sep) == head + sep + Join(tail, sep)
  {
    assert ([head] + tail)[1..] == tail;
  }

  lemma SliceAround(s: string, sep: string, i: nat)
    requires SepAt(s, sep, i)
    ensures s[..i] + sep + s[i + |sep|..] == s
  {
    assert s == s[..i] + s[i..i + |sep|] + s[i + |sep|..];
  }

  /** No piece contains the separator. */
  lemma {:induction false} SplitPiecesFree(s: string, sep: string)
    requires |sep| > 0
    ensures forall k, j :: 0 <= k < |Split(s, sep)| && 0 <= j ==> !SepAt(Split(s, sep)[k], sep, j)
    decreases |s|
  {
    match IndexOf(s, sep)
    case None =>
    case Some(i) =>
      var rest := s[i + |sep|..];
      SplitPiecesFree(rest, sep);
      var parts := Split(s, sep);
      forall k, j | 0 <= k < |parts| && 0 <= j
        ensures !SepAt(parts[k], sep, j)
      {
        if k == 0 {
          if SepAt(s[..i], sep, j) {
            assert s[..i][j..j + |sep|] == s[j..j + |sep|];
            assert SepAt(s, sep, j);
          }
        } else {
          assert parts[k] == Split(rest, sep)[k - 1];
        }
      }
  }

  /** `str::strip_prefix`. */
  function StripPrefix(s: string, prefix: string): (r: Option<string>)
    ensures r.Some? <==> prefix <= s
    ensures r.Some? ==> s == prefix + r.value
  {
    if prefix <= s then Some(s[|prefix|..]) else None
  }

  /** `find_map(strip_prefix)`: what follows the prefix in the first piece that starts with it. */
  function FindMapStripPrefix(parts: seq<string>, prefix: string): (r: Option<string>)
    ensures r.None? <==> forall k :: 0 <= k < |parts| ==> !(prefix <= parts[k])
    ensures r.Some? ==>
              exists k :: 0 <= k < |parts| && parts[k] == prefix + r.value
                          && forall m :: 0 <= m < k ==> !(prefix <= parts[m])
  {
    if parts == [] then None
    else
      match StripPrefix(parts[0], prefix)
      case Some(v) => Some(v)
      case None =>
        var r := FindMapStripPrefix(parts[1..], prefix);
        assert forall k :: 1 <= k < |parts| ==> parts[k] == parts[1..][k - 1];
        if r.Some? then
          var k :| 0 <= k < |parts[1..]| && parts[1..][k] == prefix + r.value
                   && forall m :: 0 <= m < k ==> !(prefix <= parts[1..][m]);
          assert parts[k + 1] == prefix + r.value;
          r
        else r
  }

  /**
   * The client branch of `get_cookie`: `document` is the result of reading
   * `document.cookie` (`None` when that read fails).
   */
  function GetCookie(document: Option<string>, name: string): (r: Option<string>)
    ensures document.None? ==> r.None?
    ensures document.Some? ==> r == FindMapStripPrefix(Split(document.value, SEPARATOR), name + "=")
  {
    match document
    case None => None
    case Some(cookies) => FindMapStripPrefix(Split(cookies, SEPARATOR), name + "=")
  }

  /** `set_cookie`'s cookie string. */
  function SetCookie(key: string, value: string): (cookie: string)
    ensures key + "=" <= cookie && |cookie| == |key| + |value| + 9
    ensures cookie[|key| + 1..] == value + "; Path=/"
  {
    key + "=" + value + "; Path=/"
  }

  /** IndexOf finds the first separator: any position with one and none before it. */
  lemma IndexOfIsFirst(s: string, sep: string, i: nat)
    requires |sep| > 0 && SepAt(s, sep, i) && forall j :: 0 <= j < i ==> !SepAt(s, sep, j)
    ensures IndexOf(s, sep) == Some(i)
  {
  }

  /** Split of a string with its first separator at i. */
  lemma SplitAtFirst(s: string, sep: string, i: nat)
    requires |sep| > 0 && SepAt(s, sep, i) && forall j :: 0 <= j < i ==> !SepAt(s, sep, j)
    ensures Split(s, sep) == [s[..i]] + Split(s[i + |sep|..], sep)
  {
    IndexOfIsFirst(s, sep, i);
  }

  /** A leading piece without a separator in it splits off as the first piece. */
  lemma SplitFirstPiece(piece: string, rest: string)
    requires forall j :: 0 <= j ==> !SepAt(piece, SEPARATOR, j)
    ensures Split(piece + SEPARATOR + rest, SEPARATOR) == [piece] + Split(rest, SEPARATOR)
  {
    var c := piece + SEPARATOR + rest;
    assert SepAt(c, SEPARATOR, |piece|) by {
      assert c[|piece|..|piece| + 2] == SEPARATOR;
    }
    forall j | 0 <= j < |piece|
      ensures !SepAt(c, SEPARATOR, j)
    {
      if j + 2 <= |piece| {
        assert c[j..j + 2] == piece[j..j + 2];
        assert !SepAt(piece, SEPARATOR, j);
      } else {
        assert c[j + 1] == ';';
      }
    }
    SplitAtFirst(c, SEPARATOR, |piece|);
    assert c[..|piece|] == piece;
    assert c[|piece| + 2..] == rest;
  }

  /** The first piece "name=value" decides, whatever follows it. */
  lemma FirstOccurrenceWins(name: string, value: string, rest: string)
    requires forall j :: 0 <= j ==> !SepAt(name + "=" + value, SEPARATOR, j)
    ensures GetCookie(Some(name + "=" + value + SEPARATOR + rest), name) == Some(value)
  {
    var pair := name + "=" + value;
    SplitFirstPiece(pair, rest);
    assert pair + SEPARATOR + rest == name + "=" + value + SEPARATOR + rest;
    assert StripPrefix(pair, name + "=") == Some(value);
  }

  /**
   * A piece that does not start with the whole "name=" is skipped: "xname=1"
   * or "names=1" do not answer for "name".
   */
  lemma NonMatchingPieceSkipped(piece: string, name: string, rest: string)
    requires forall j :: 0 <= j ==> !SepAt(piece, SEPARATOR, j)
    requires !(name + "=" <= piece)
    ensures GetCookie(Some(piece + SEPARATOR + rest), name) == GetCookie(Some(rest), name)
  {
    SplitFirstPiece(piece, rest);
    var parts := Split(piece + SEPARATOR + rest, SEPARATOR);
    assert parts[1..] == Split(rest, SEPARATOR);
  }

  /**
   * Reading back a cookie string `set_cookie` built gives the value,
   * provided the "key=value" part does not itself contain "; ".
   */
  lemma GetSetCookie(key: string, value: string)
    requires forall j :: 0 <= j ==> !SepAt(key + "=" + value, SEPARATOR, j)
    ensures GetCookie(Some(SetCookie(key, value)), key) == Some(value)
  {
    FirstOccurrenceWins(key, value, "Path=/");
    assert SetCookie(key, value) == key + "=" + value + SEPARATOR + "Path=/";
  }

  /** An empty value and a value containing "=" are returned as they are. */
  lemma ValueKeptVerbatim()
    ensures GetCookie(Some("a="), "a") == Some("")
    ensures GetCookie(Some("a=b=c"), "a") == Some("b=c")
  {
    var c1, c2 := "a=", "a=b=c";
    assert !SepAt(c1, SEPARATOR, 0) by { assert c1[0..2] == "a="; }
    assert IndexOf(c1, SEPARATOR) == None;
    assert forall j | 0 <= j < 4 :: !SepAt(c2, SEPARATOR, j) by {
      assert c2[0..2] == "a=" && c2[1..3] == "=b" && c2[2..4] == "b=" && c2[3..5] == "=c";
    }
    assert IndexOf(c2, SEPARATOR) == None;
    assert StripPrefix(c2, "a=") == Some("b=c");
  }
}

=== FILE: dec_len.dfy ===
/**
 * `DecLen for u64` (src/util.rs): the number of decimal digits of a `u64`,
 * computed by one range match over the powers of ten.
 */
module DecimalLength {
  import opened Numeric

  /**
   * The range match of `dec_len`. Its contract places n between consecutive
   * powers of ten, so the result is the decimal digit count.
   */
  function DecLen(n: U64): (k: nat)
    ensures 1 <= k <= 20
    ensures n < Pow10(k)
    ensures k == 1 || Pow10(k - 1) <= n
  {
    Pow10Large();
    if n <= 9 then 1
    else if n <= 99 then 2
    else if n <= 999 then 3
    else if n <= 9999 then 4
    else if n <= 99999 then 5
    else if n <= 999999 then 6
    else if n <= 9999999 then 7
    else if n <= 99999999 then 8
    else if n <= 999999999 then 9
    else if n <= 9999999999 then 10
    else if n <= 99999999999 then 11
    else if n <= 999999999999 then 12
    else if n <= 9999999999999 then 13
    else if n <= 99999999999999 then 14
    else if n <= 999999999999999 then 15
    else if n <= 9999999999999999 then 16
    else if n <= 99999999999999999 then 17
    else if n <= 999999999999999999 then 18
    else if n <= 9999999999999999999 then 19
    else 20
  }

  /** The powers of ten at the top of the u64 range. */
  lemma Pow10Large()
    ensures Pow10(18) == 1_000_000_000_000_000_000
    ensures Pow10(19) == 10_000_000_000_000_000_000
    ensures Pow10(20) == 100_000_000_000_000_000_000
  {
    assert Pow10(12) == 1_000_000_000_000;
  }

  /** The table agrees with counting digits by repeated division. */
  lemma DecLenIsNumDigits(n: U64)
    ensures DecLen(n) == NumDigits(n)
  {
    NumDigitsUnique(n, DecLen(n));
  }

  /** dec_len(n) is the least k >= 1 with n < 10^k. */
  lemma DecLenIsLeast(n: U64, k: nat)
    requires k >= 1 && n < Pow10(k)
    ensures DecLen(n) <= k
  {
    if k < DecLen(n) {
      Pow10Monotone(k, DecLen(n) - 1);
    }
  }

  lemma DecLenOfSmall(n: U64)
    ensures n <= 9 <==> DecLen(n) == 1
  {
  }

  lemma DecLenEight(n: U64)
    ensures DecLen(n) == 8 <==> 10_000_000 <= n <= 99_999_999
  {
  }

  lemma DecLenThirteen(n: U64)
    ensures DecLen(n) == 13 <==> 1_000_000_000_000 <= n <= 9_999_999_999_999
  {
  }

  lemma DecLenOfMax()
    ensures DecLen(U64_MAX) == 20
  {
  }

  lemma DecLenMonotone(a: U64, b: U64)
    requires a <= b
    ensures DecLen(a) <= DecLen(b)
  {
    DecLenIsLeast(a, DecLen(b));
  }

  /** The decimal rendering of n has exactly dec_len(n) characters. */
  lemma DecLenIsTextLength(n: U64)
    ensures |ToDecimal(n)| == DecLen(n)
  {
    DecLenIsNumDigits(n);
  }

  /** A string of k digits (leading zeros allowed) denotes a number with at most k digits. */
  lemma DecLenOfDigits(s: string)
    requires AllDigits(s) && s != [] && Value(s) <= U64_MAX
    ensures DecLen(Value(s)) <= |s|
  {
    ValueBound(s);
    DecLenIsLeast(Value(s), |s|);
  }
}

=== FILE: img_popup.dfy ===
/** The full-size image popup (src/img_popup.rs): it is open while it holds a URL. */
module ImgPopup {
  import opened Wrappers

  class ImgPopup {
    var url: Option<string>

    /** `Default`: no URL, so closed. */
    constructor ()
      ensures url == None && !IsOpen()
    {
      url := None;
    }

    /** `open`: store the URL, replacing any previous one. */
    method Open(newUrl: string)
      modifies this
      ensures url == Some(newUrl) && IsOpen()
    {
      url := Some(newUrl);
    }

    /** `close`: take the URL out; closing a closed popup changes nothing. */
    method Close()
      modifies this
      ensures url == None && !IsOpen()
    {
      url := None;
    }

    /** `is_open`: a URL is stored. */
    function IsOpen(): (shown: bool)
      reads this
      ensures shown <==> url.Some?
    {
      url.Some?
    }
  }
}

=== FILE: item_amount.dfy ===
/**
 * The amount control of an item (src/item/count.rs): a `u64` cell with a
 * saturating "+" and "-" and a number input that keeps the old amount when
 * the entered text is not a number.
 */
module ItemAmount {
  import opened Numeric

  /** The `amount` signal the component updates. */
  class ItemCount {
    var amount: U64

    constructor (initial: U64)
      ensures amount == initial
    {
      amount := initial;
    }

    /** "+": `saturating_add(1)`. */
    method Inc()
      modifies this
      ensures amount == SaturatingInc(old(amount), U64_MAX)
    {
      if amount < U64_MAX {
        amount := amount + 1;
      }
    }

    /** "-": `saturating_sub(1)`. */
    method Dec()
      modifies this
      ensures amount == SaturatingDec(old(amount))
    {
      if amount > 0 {
        amount := amount - 1;
      }
    }

    /** The input's change event: parse the text as a `u64`, or keep the amount. */
    method Change(text: string)
      modifies this
      ensures amount == ParseOr(text, U64_MAX, old(amount))
    {
      var parsed := ParseUnsigned(text, U64_MAX);
      if parsed.Ok? {
        amount := parsed.value;
      }
    }
  }
}

=== FILE: item_counter.dfy ===
/**
 * The older count control (src/item_count.rs): its own `u32` signal starting
 * at 0, a saturating "+" and "-", and a number input that keeps the old count
 * when the entered text is not a number.
 */
module ItemCounter {
  import opened Numeric

  class ItemCount {
    var count: U32

    /** `create_signal(0u32)`. */
    constructor ()
      ensures count == 0
    {
      count := 0;
    }

    /** "+": `saturating_add(1)`. */
    method Inc()
      modifies this
      ensures count == SaturatingInc(old(count), U32_MAX)
    {
      if count < U32_MAX {
        count := count + 1;
      }
    }

    /** "-": `saturating_sub(1)`. */
    method Dec()
      modifies this
      ensures count == SaturatingDec(old(count))
    {
      if count > 0 {
        count := count - 1;
      }
    }

    /** The input's change event: parse the text as a `u32`, or keep the count. */
    method Change(text: string)
      modifies this
      ensures count == ParseOr(text, U32_MAX, old(count))
    {
      var parsed := ParseUnsigned(text, U32_MAX);
      if parsed.Ok? {
        count := parsed.value;
      }
    }
  }
}

=== FILE: item_list.dfy ===
/**
 * The server-backed list (src/list.rs): a vector of items; removing an id
 * finds the first item with it and removes that one element in place.
 */
module ItemList {
  import opened Wrappers
  import opened Numeric

  /** A list item reduced to what list edits look at: its id. The rest of the record is carried along. */
  datatype Item<Id, P> = Item(id: Id, data: P)

  /** Some item carries the id. */
  predicate HasId<Id(==), P>(items: seq<Item<Id, P>>, id: Id) {
    exists i :: 0 <= i < |items| && items[i].id == id
  }

  /** i is the first position carrying the id. */
  predicate IsFirstWithId<Id(==), P>(items: seq<Item<Id, P>>, id: Id, i: nat) {
    i < |items| && items[i].id == id && forall j :: 0 <= j < i ==> items[j].id != id
  }

  /** Reference definition: drop the first item with the id, if any. */
  function RemoveFirst<Id(==), P>(items: seq<Item<Id, P>>, id: Id): seq<Item<Id, P>> {
    if items == [] then []
    else if items[0].id == id then items[1..]
    else [items[0]] + RemoveFirst(items[1..], id)
  }

  /** `iter().position`: the first index whose item has the id. */
  method Position<Id(==), P>(items: seq<Item<Id, P>>, id: Id) returns (idx: Option<nat>)
    ensures idx.None? <==> !HasId(items, id)
    ensures idx.Some? ==> IsFirstWithId(items, id, idx.value)
  {
    var i := 0;
    while i < |items|
      invariant 0 <= i <= |items|
      invariant forall j :: 0 <= j < i ==> items[j].id != id
    {
      if items[i].id == id {
        return Some(i);
      }
      i := i + 1;
    }
    return None;
  }

  /** Without a matching item nothing is removed. */
  lemma {:induction false} RemoveFirstAbsent<Id, P>(items: seq<Item<Id, P>>, id: Id)
    requires !HasId(items, id)
    ensures RemoveFirst(items, id) == items
  {
    if items != [] {
      assert items[0].id != id;
      RemoveFirstAbsent(items[1..], id);
      assert [items[0]] + items[1..] == items;
    }
  }

  /** With a first match at i, exactly that element goes and the rest keep their order. */
  lemma {:induction false} RemoveFirstAt<Id, P>(items: seq<Item<Id, P>>, id: Id, i: nat)
    requires IsFirstWithId(items, id, i)
    ensures RemoveFirst(items, id) == items[..i] + items[i + 1..]
  {
    if i > 0 {
      assert items[0].id != id;
      assert IsFirstWithId(items[1..], id, i - 1);
      RemoveFirstAt(items[1..], id, i - 1);
      assert items[..i] == [items[0]] + items[1..][..i - 1];
      assert items[i + 1..] == items[1..][i..];
    }
  }

  /** A present id shortens the list by exactly one. */
  lemma RemoveFirstLength<Id, P>(items: seq<Item<Id, P>>, id: Id)
    ensures |RemoveFirst(items, id)| == if HasId(items, id) then |items| - 1 else |items|
  {
    if HasId(items, id) {
      var i := FirstWithId(items, id);
      RemoveFirstAt(items, id, i);
    } else {
      RemoveFirstAbsent(items, id);
    }
  }

  /** The first position carrying a present id. */
  lemma FirstWithId<Id, P>(items: seq<Item<Id, P>>, id: Id) returns (i: nat)
    requires HasId(items, id)
    ensures IsFirstWithId(items, id, i)
  {
    var k :| 0 <= k < |items| && items[k].id == id;
    i := 0;
    while items[i].id != id
      invariant i <= k
      invariant forall j :: 0 <= j < i ==> items[j].id != id
      decreases k - i
    {
      i := i + 1;
    }
  }

  /** The list of src/list.rs, whose item ids are `i64`. */
  class List<P> {
    var items: seq<Item<I64, P>>

    /** `Default`: the empty list. */
    constructor ()
      ensures items == []
    {
      items := [];
    }

    /** `local_remove_id`: find the first item with the id and remove it; no match changes nothing. */
    method LocalRemoveId(id: I64)
      modifies this
      ensures items == RemoveFirst(old(items), id)
    {
      var idx := Position(items, id);
      match idx
      case None =>
        RemoveFirstAbsent(items, id);
      case Some(i) =>
        RemoveFirstAt(items, id, i);
        items := items[..i] + items[i + 1..];
    }
  }
}

=== FILE: language.dfy ===
/**
 * The site language (src/language/mod.rs): a closed enumeration with a
 * two-letter code, a display name, and parsing from either spelling.
 */
module Languages {
  import opened Wrappers
  import Cookies

  datatype Language = English | German

  const SITE_DEFAULT_LANGUAGE: Language := English

  /** The two-letter code. */
  function Short(l: Language): (code: string)
    ensures |code| == 2
    ensures code == "en" <==> l == English
    ensures code == "de" <==> l == German
  {
    match l
    case English => "en"
    case German => "de"
  }

  /** `Default`: the site default language. */
  function Default(): (l: Language)
    ensures l == English
  {
    SITE_DEFAULT_LANGUAGE
  }

  /** `Display`: the language's own name. */
  function ToString(l: Language): (name: string)
    ensures name == "English" <==> l == English
    ensures name == "Deutsch" <==> l == German
  {
    match l
    case English => "English"
    case German => "Deutsch"
  }

  /** `TryFrom<String>`: either the display name or the code; anything else is an error naming the input. */
  function TryFromString(s: string): (r: Result<Language, string>)
    ensures r.Ok? <==> s in {"English", "Deutsch", "en", "de"}
    ensures r == Ok(English) <==> s == "English" || s == "en"
    ensures r == Ok(German) <==> s == "Deutsch" || s == "de"
    ensures r.Err? ==> r.error == "Invalid language String: " + s
  {
    if s == "English" then Ok(English)
    else if s == "Deutsch" then Ok(German)
    else if s == "en" then Ok(English)
    else if s == "de" then Ok(German)
    else Err("Invalid language String: " + s)
  }

  /** `TryFrom<Option<String>>`: a missing string is an error, a present one is parsed. */
  function TryFromOption(value: Option<string>): (r: Result<Language, string>)
    ensures value.None? ==> r == Err("`None` provided as language")
    ensures value.Some? ==> (r.Ok? <==> value.value in {"English", "Deutsch", "en", "de"})
    ensures value.Some? && r.Ok? ==> r.value == TryFromString(value.value).value
    ensures value.Some? ==> r == TryFromString(value.value)
  {
    match value
    case Some(s) => TryFromString(s)
    case None => Err("`None` provided as language")
  }

  /** `from_cookies`: the "language" cookie, when present and parseable. */
  function FromCookies(document: Option<string>): (l: Option<Language>)
    ensures l.Some? <==> Cookies.GetCookie(document, "language").Some?
                         && Cookies.GetCookie(document, "language").value in {"English", "Deutsch", "en", "de"}
    ensures l.Some? ==> TryFromString(Cookies.GetCookie(document, "language").value) == Ok(l.value)
  {
    match Cookies.GetCookie(document, "language")
    case None => None
    case Some(s) => ToOption(TryFromString(s))
  }

  /** The code parses back to the language. */
  lemma ShortRoundTrip(l: Language)
    ensures TryFromString(Short(l)) == Ok(l)
  {
  }

  /** The display name parses back to the language. */
  lemma ToStringRoundTrip(l: Language)
    ensures TryFromString(ToString(l)) == Ok(l)
  {
  }

  /** Every accepted string is the code or the display name of its language. */
  lemma AcceptedAreNames(s: string)
    requires TryFromString(s).Ok?
    ensures s == Short(TryFromString(s).value) || s == ToString(TryFromString(s).value)
  {
  }

  /** The pair `set_language` stores contains no cookie separator. */
  lemma PairHasNoSeparator(l: Language)
    ensures forall j :: 0 <= j ==> !Cookies.SepAt("language=" + ToString(l), Cookies.SEPARATOR, j)
  {
    var pair := "language=" + ToString(l);
    assert forall i | 0 <= i < |pair| :: pair[i] != ';' by {
      if l == English {
        assert pair == "language=English";
      } else {
        assert pair == "language=Deutsch";
      }
    }
    forall j | 0 <= j
      ensures !Cookies.SepAt(pair, Cookies.SEPARATOR, j)
    {
      if j + 2 <= |pair| {
        assert pair[j..j + 2][0] == pair[j] != ';';
      }
    }
  }

  /**
   * `set_language` stores the display name under "language"; a cookie
   * header that holds that pair (alone, or first, before other cookies)
   * reads back as the language.
   */
  lemma CookieRoundTrip(l: Language, rest: string)
    ensures FromCookies(Some("language=" + ToString(l))) == Some(l)
    ensures FromCookies(Some("language=" + ToString(l) + Cookies.SEPARATOR + rest)) == Some(l)
  {
    var pair := "language=" + ToString(l);
    PairHasNoSeparator(l);
    assert Cookies.Split(pair, Cookies.SEPARATOR) == [pair];
    assert Cookies.StripPrefix(pair, "language=") == Some(ToString(l));
    Cookies.FirstOccurrenceWins("language", ToString(l), rest);
    assert "language" + "=" + ToString(l) == pair;
    ToStringRoundTrip(l);
  }
}

=== FILE: language_tag.dfy ===
/**
 * The newer language tag (src/language.rs): only English exists; "en" and
 * every "en-" region tag select it, and any other tag is refused.
 */
module LanguageTag {
  import opened Wrappers

  datatype Language = English

  /** `Default`. */
  function Default(): (l: Language)
    ensures l == English
  {
    English
  }

  /** `TryFrom<&str>`: the error is the refused input itself. */
  function TryFromStr(lang: string): (r: Result<Language, string>)
    ensures r.Ok? <==> lang == "en" || "en-" <= lang
    ensures r.Err? ==> r.error == lang
  {
    if lang == "en" then Ok(English)
    else if "en-" <= lang then Ok(English)
    else Err(lang)
  }

  /** `new`: the parse result with the error dropped. */
  function New(lang: string): (l: Option<Language>)
    ensures l.Some? <==> TryFromStr(lang).Ok?
    ensures l.Some? <==> lang == "en" || "en-" <= lang
  {
    ToOption(TryFromStr(lang))
  }

  /** Matching is exact and case-sensitive. */
  lemma CaseSensitive()
    ensures TryFromStr("EN") == Err("EN")
    ensures TryFromStr("en_US") == Err("en_US")
    ensures TryFromStr("english") == Err("english")
    ensures TryFromStr("") == Err("")
  {
    assert "en_US"[2] == '_';
    assert "english"[2] == 'g';
  }

  /** Every region tag of English is accepted, including the bare "en-". */
  lemma RegionTagsAccepted(region: string)
    ensures New("en-" + region) == Some(English)
  {
  }
}

=== FILE: numeric.dfy ===
/**
 * Fixed-width Rust integers, powers of ten, decimal digit strings and
 * Rust's `str::parse` for unsigned integers (`u8::from_str_radix` and
 * friends with radix 10), which the barcode and counter code rely on.
 */
module Numeric {
  import opened Wrappers

  const U8_MAX: nat := 0xFF
  const U32_MAX: nat := 0xFFFF_FFFF
  const U64_MAX: nat := 0xFFFF_FFFF_FFFF_FFFF
  const I64_MAX: int := 0x7FFF_FFFF_FFFF_FFFF

  type U8 = n: int | 0 <= n <= 0xFF
  type U32 = n: int | 0 <= n <= 0xFFFF_FFFF
  type U64 = n: int | 0 <= n <= 0xFFFF_FFFF_FFFF_FFFF
  type I64 = n: int | -0x8000_0000_0000_0000 <= n <= 0x7FFF_FFFF_FFFF_FFFF

  /** `x as u64` for an `i64`: two's complement reinterpretation. */
  function I64AsU64(x: I64): (r: U64)
    ensures x >= 0 ==> r == x
    ensures x < 0 ==> r > I64_MAX && r == x + U64_MAX + 1
  {
    if x >= 0 then x else x + U64_MAX + 1
  }

  function Pow10(k: nat): (p: nat)
    ensures p >= 1
  {
    if k == 0 then 1 else 10 * Pow10(k - 1)
  }

  lemma {:induction false} Pow10Monotone(i: nat, j: nat)
    requires i <= j
    ensures Pow10(i) <= Pow10(j)
    decreases j
  {
    if i < j {
      Pow10Monotone(i, j - 1);
    }
  }

  // ---------------------------------------------------------------------
  // Decimal digit strings

  predicate IsDigit(c: char) {
    '0' <= c <= '9'
  }

  predicate AllDigits(s: string) {
    forall i :: 0 <= i < |s| ==> IsDigit(s[i])
  }

  function DigitValue(c: char): (d: nat)
    requires IsDigit(c)
    ensures d <= 9
  {
    (c - '0') as nat
  }

  function DigitChar(d: nat): (c: char)
    requires d <= 9
    ensures IsDigit(c) && DigitValue(c) == d
  {
    '0' + d as char
  }

  /** The number a string of decimal digits denotes (most significant first). */
  function Value(s: string): (v: nat)
    requires AllDigits(s)
  {
    if s == [] then 0 else Value(s[..|s| - 1]) * 10 + DigitValue(s[|s| - 1])
  }

  /** A string of n digits denotes a number below 10^n. */
  lemma {:induction false} ValueBound(s: string)
    requires AllDigits(s)
    ensures Value(s) < Pow10(|s|)
    decreases |s|
  {
    if s != [] {
      ValueBound(s[..|s| - 1]);
    }
  }

  /** Leading zeros do not change the value. */
  lemma {:induction false} ValueLeadingZero(s: string)
    requires AllDigits(s)
    ensures AllDigits("0" + s) && Value("0" + s) == Value(s)
    decreases |s|
  {
    if s != [] {
      var init := s[..|s| - 1];
      ValueLeadingZero(init);
      assert ("0" + s)[..|"0" + s| - 1] == "0" + init;
    }
  }

  /** The number of decimal digits of n, by repeated division. */
  function NumDigits(n: nat): (k: nat)
    ensures k >= 1
  {
    if n < 10 then 1 else 1 + NumDigits(n / 10)
  }

  /** NumDigits(n) is the k with 10^(k-1) <= n < 10^k. */
  lemma {:induction false} NumDigitsBounds(n: nat)
    ensures n < Pow10(NumDigits(n))
    ensures NumDigits(n) == 1 || Pow10(NumDigits(n) - 1) <= n
  {
    if n >= 10 {
      NumDigitsBounds(n / 10);
    }
  }

  /** Those bounds determine the digit count uniquely. */
  lemma NumDigitsUnique(n: nat, k: nat)
    requires k >= 1 && n < Pow10(k) && (k == 1 || Pow10(k - 1) <= n)
    ensures NumDigits(n) == k
  {
    var d := NumDigits(n);
    NumDigitsBounds(n);
    if d < k {
      Pow10Monotone(d, k - 1);
      assert false;
    } else if k < d {
      Pow10Monotone(k, d - 1);
      assert false;
    }
  }

  /** The decimal rendering of n (Rust's `Display` for unsigned integers). */
  function ToDecimal(n: nat): (s: string)
    ensures |s| == NumDigits(n)
    ensures AllDigits(s) && s != []
  {
    if n < 10 then [DigitChar(n)] else ToDecimal(n / 10) + [DigitChar(n % 10)]
  }

  lemma {:induction false} ValueToDecimal(n: nat)
    ensures Value(ToDecimal(n)) == n
  {
    if n >= 10 {
      ValueToDecimal(n / 10);
      var s := ToDecimal(n);
      assert s[..|s| - 1] == ToDecimal(n / 10);
    }
  }

  // ---------------------------------------------------------------------
  // `str::parse::<uN>()`

  /** The kinds of `ParseIntError` an unsigned parse can produce. */
  datatype IntErrorKind = Empty | InvalidDigit | PosOverflow

  /**
   * The digit loop of `from_str_radix`: left to right, a non-digit is
   * `InvalidDigit`, and a partial value above `max` is `PosOverflow`.
   */
  function Accumulate(digits: string, acc: nat, max: nat): (r: Result<nat, IntErrorKind>)
    requires acc <= max
    ensures r.Ok? ==> acc <= r.value <= max
    decreases |digits|
  {
    if digits == [] then Ok(acc)
    else if !IsDigit(digits[0]) then Err(InvalidDigit)
    else
      var next := acc * 10 + DigitValue(digits[0]);
      if next > max then Err(PosOverflow) else Accumulate(digits[1..], next, max)
  }

  /**
   * Parse an unsigned integer no larger than `max`: the empty string is
   * `Empty`, a lone sign is `InvalidDigit`, one leading `+` is skipped and
   * a leading `-` is just an invalid digit.
   */
  function ParseUnsigned(s: string, max: nat): (r: Result<nat, IntErrorKind>)
    ensures r.Ok? ==> r.value <= max
  {
    if s == [] then Err(Empty)
    else if (s[0] == '+' || s[0] == '-') && |s| == 1 then Err(InvalidDigit)
    else if s[0] == '+' then Accumulate(s[1..], 0, max)
    else Accumulate(s, 0, max)
  }

  /** The digits a parse looks at: the input without one leading `+`. */
  function Unsigned(s: string): string {
    if s != [] && s[0] == '+' then s[1..] else s
  }

  /** What Accumulate computes when nothing overflows: acc followed by the digits, read as a number. */
  function FoldDigits(acc: nat, digits: string): (v: nat)
    requires AllDigits(digits)
    decreases |digits|
  {
    if digits == [] then acc else FoldDigits(acc * 10 + DigitValue(digits[0]), digits[1..])
  }

  lemma {:induction false} FoldDigitsSnoc(acc: nat, digits: string, c: char)
    requires AllDigits(digits) && IsDigit(c)
    ensures AllDigits(digits + [c])
    ensures FoldDigits(acc, digits + [c]) == FoldDigits(acc, digits) * 10 + DigitValue(c)
    decreases |digits|
  {
    if digits != [] {
      assert (digits + [c])[1..] == digits[1..] + [c];
      FoldDigitsSnoc(acc * 10 + DigitValue(digits[0]), digits[1..], c);
    }
  }

  /** Reading left to right from zero gives the value of the digit string. */
  lemma {:induction false} FoldDigitsValue(digits: string)
    requires AllDigits(digits)
    ensures FoldDigits(0, digits) == Value(digits)
    decreases |digits|
  {
    if digits != [] {
      var init := digits[..|digits| - 1];
      FoldDigitsValue(init);
      FoldDigitsSnoc(0, init, digits[|digits| - 1]);
      assert init + [digits[|digits| - 1]] == digits;
    }
  }

  /** The partial values only grow, so the final one bounds them all. */
  lemma {:induction false} FoldDigitsAtLeast(acc: nat, digits: string)
    requires AllDigits(digits)
    ensures acc <= FoldDigits(acc, digits)
    decreases |digits|
  {
    if digits != [] {
      FoldDigitsAtLeast(acc * 10 + DigitValue(digits[0]), digits[1..]);
    }
  }

  lemma {:induction false} AccumulateSpec(digits: string, acc: nat, max: nat)
    requires acc <= max
    ensures Accumulate(digits, acc, max).Ok?
        <==> AllDigits(digits) && FoldDigits(acc, digits) <= max
    ensures Accumulate(digits, acc, max).Ok? ==> Accumulate(digits, acc, max).value == FoldDigits(acc, digits)
    ensures Accumulate(digits, acc, max).Err? && AllDigits(digits) ==> Accumulate(digits, acc, max).error == PosOverflow
    decreases |digits|
  {
    if digits != [] && IsDigit(digits[0]) {
      var next := acc * 10 + DigitValue(digits[0]);
      var rest := digits[1..];
      if next <= max {
        AccumulateSpec(rest, next, max);
        if !AllDigits(rest) {
          var i :| 0 <= i < |rest| && !IsDigit(rest[i]);
          assert !IsDigit(digits[i + 1]);
        }
      } else if AllDigits(digits) {
        FoldDigitsAtLeast(next, rest);
      }
    }
  }

  /**
   * A parse succeeds exactly on an optional `+` followed by a non-empty run
   * of digits whose value fits, and yields that value.
   */
  lemma ParseUnsignedSpec(s: string, max: nat)
    ensures ParseUnsigned(s, max).Ok?
        <==> Unsigned(s) != [] && AllDigits(Unsigned(s)) && Value(Unsigned(s)) <= max
    ensures ParseUnsigned(s, max).Ok? ==> ParseUnsigned(s, max).value == Value(Unsigned(s))
    ensures s == [] ==> ParseUnsigned(s, max) == Err(Empty)
  {
    if s != [] && !((s[0] == '+' || s[0] == '-') && |s| == 1) {
      AccumulateSpec(Unsigned(s), 0, max);
      if AllDigits(Unsigned(s)) {
        FoldDigitsValue(Unsigned(s));
      }
    }
  }

  /** A run of digits that fits is read through without an error. */
  lemma {:induction false} AccumulatePrefix(p: string, rest: string, acc: nat, max: nat)
    requires acc <= max && AllDigits(p) && FoldDigits(acc, p) <= max
    ensures Accumulate(p + rest, acc, max) == Accumulate(rest, FoldDigits(acc, p), max)
    decreases |p|
  {
    if p != [] {
      var next := acc * 10 + DigitValue(p[0]);
      FoldDigitsAtLeast(next, p[1..]);
      assert (p + rest)[1..] == p[1..] + rest;
      AccumulatePrefix(p[1..], rest, next, max);
    } else {
      assert p + rest == rest;
    }
  }

  /** A non-empty run of digits whose value is too large is `PosOverflow`. */
  lemma ParseOverflow(s: string, max: nat)
    requires Unsigned(s) != [] && AllDigits(Unsigned(s)) && Value(Unsigned(s)) > max
    ensures ParseUnsigned(s, max) == Err(PosOverflow)
  {
    ParseUnsignedSpec(s, max);
    AccumulateSpec(Unsigned(s), 0, max);
  }

  /**
   * A non-digit after the optional `+` is `InvalidDigit`, provided the
   * digits before it fit (otherwise the overflow is found first).
   */
  lemma ParseInvalidDigit(s: string, max: nat, p: string, c: char, q: string)
    requires Unsigned(s) == p + [c] + q && AllDigits(p) && !IsDigit(c) && Value(p) <= max
    ensures ParseUnsigned(s, max) == Err(InvalidDigit)
  {
    FoldDigitsValue(p);
    AccumulatePrefix(p, [c] + q, 0, max);
    assert p + [c] + q == p + ([c] + q);
  }

  /** Parsing the decimal rendering gives the number back. */
  lemma ParseToDecimal(n: nat, max: nat)
    requires n <= max
    ensures ParseUnsigned(ToDecimal(n), max) == Ok(n)
  {
    var s := ToDecimal(n);
    assert IsDigit(s[0]);
    assert Unsigned(s) == s;
    ValueToDecimal(n);
    ParseUnsignedSpec(s, max);
  }

  /** `saturating_add(1)` on an unsigned type whose largest value is `max`. */
  function SaturatingInc(x: nat, max: nat): (r: nat)
    requires x <= max
    ensures r <= max
    ensures x < max ==> r == x + 1
    ensures x == max ==> r == x
  {
    if x < max then x + 1 else max
  }

  /** `saturating_sub(1)` on an unsigned type. */
  function SaturatingDec(x: nat): (r: nat)
    ensures r <= x
    ensures x > 0 ==> r == x - 1
    ensures x == 0 ==> r == 0
  {
    if x > 0 then x - 1 else 0
  }

  /** Decrementing undoes an increment below the maximum, and incrementing undoes a decrement above zero. */
  lemma SaturatingRoundTrip(x: nat, max: nat)
    requires x <= max
    ensures x < max ==> SaturatingDec(SaturatingInc(x, max)) == x
    ensures x > 0 ==> SaturatingInc(SaturatingDec(x), max) == x
  {
  }

  /** `text.parse().unwrap_or(current)`: the parsed number, or `current` when the text does not parse. */
  function ParseOr(text: string, max: nat, current: nat): (r: nat)
    requires current <= max
    ensures r <= max
    ensures r == current || ParseUnsigned(text, max).Ok?
  {
    match ParseUnsigned(text, max)
    case Ok(v) => v
    case Err(_) => current
  }

  /**
   * A number's decimal text sets the number; text without digits, with a
   * non-digit or with a value above `max` leaves `current` in place.
   */
  lemma ParseOrSpec(text: string, max: nat, current: nat)
    requires current <= max
    ensures (Unsigned(text) == [] || !AllDigits(Unsigned(text))) ==> ParseOr(text, max, current) == current
    ensures AllDigits(Unsigned(text)) && Unsigned(text) != [] && Value(Unsigned(text)) > max
            ==> ParseOr(text, max, current) == current
    ensures AllDigits(Unsigned(text)) && Unsigned(text) != [] && Value(Unsigned(text)) <= max
            ==> ParseOr(text, max, current) == Value(Unsigned(text))
  {
    ParseUnsignedSpec(text, max);
  }

  /** Entering the decimal text of an in-range number stores that number. */
  lemma ParseOrToDecimal(n: nat, max: nat, current: nat)
    requires n <= max && current <= max
    ensures ParseOr(ToDecimal(n), max, current) == n
  {
    ParseToDecimal(n, max);
  }
}

=== FILE: popup.dfy ===
/** The popup visibility flag (src/popup.rs). */
module Popup {
  class PopupSignal {
    var open: bool

    /** `new`: a popup starts closed. */
    constructor ()
      ensures !IsOpen()
    {
      open := false;
    }

    /** `open`: shown afterwards, whatever it was before. */
    method Open()
      modifies this
      ensures IsOpen()
    {
      open := true;
    }

    /** `close`: hidden afterwards, whatever it was before. */
    method Close()
      modifies this
      ensures !IsOpen()
    {
      open := false;
    }

    /** `toggle`: flips the flag. */
    method Toggle()
      modifies this
      ensures IsOpen() == !old(IsOpen())
    {
      open := !open;
    }

    /** `is_open`: reads the flag. */
    function IsOpen(): (shown: bool)
      reads this
      ensures shown <==> open
    {
      open
    }
  }

  /** Two toggles restore the previous state. */
  method ToggleTwice(p: PopupSignal)
    modifies p
    ensures p.IsOpen() == old(p.IsOpen())
  {
    p.Toggle();
    p.Toggle();
  }
}

=== FILE: scanner_barcode.dfy ===
/**
 * The barcode value type of the scanner (src/barcode_scanner/barcode.rs)
 * and the scanner's error enum (src/barcode_scanner/error.rs).
 *
 * A `Barcode` wraps a `NonZeroI64`. The validating constructors accept a
 * `u64` only when it has exactly 8 (EAN-8) or 13 (EAN-13) decimal digits;
 * nothing else is checked, in particular not the EAN check digit.
 */
module ScannerBarcode {
  import opened Wrappers
  import opened Numeric
  import opened DecimalLength

  /**
   * `BarcodeError`. Payloads that are JavaScript values or errors of other
   * components are kept as their text; a `ParseIntError` as its kind.
   */
  datatype BarcodeError =
    | CameraError(camera: string)
    | GetCanvasContextErr
    | DrawImgErr(drawError: string)
    | GetImgDataErr(readError: string)
    | SetIntervalErr(timerError: string)
    | JsDynCastError
    | UnsupportedBarcodeType(format: string)
    | ParseBarcodeErr(kind: IntErrorKind)
    | InvalidBarcodeLength(expected: U8, got: U8)
    | InvalidBarcode(value: U64)
    | TryFromIntError

  type NonZeroI64 = x: I64 | x != 0 witness 1

  datatype Barcode = Barcode(digits: NonZeroI64)

  datatype BarcodeType = Ean13 | Ean8

  /** The digit count a symbology requires. */
  function RequiredLength(t: BarcodeType): (len: U8)
    ensures len == 8 || len == 13
  {
    match t
    case Ean8 => 8
    case Ean13 => 13
  }

  /** A barcode as the validating constructors build it: positive, 8 or 13 digits. */
  predicate IsEan(b: Barcode) {
    b.digits > 0 && (DecLen(b.digits) == 8 || DecLen(b.digits) == 13)
  }

  /** `u64::try_into::<i64>()`, with `TryFromIntError` turned into a `BarcodeError` by `?`. */
  function TryIntoI64(d: U64): (r: Result<I64, BarcodeError>)
    ensures r.Ok? <==> d <= I64_MAX
    ensures r.Ok? ==> r.value == d
  {
    if d <= I64_MAX then Ok(d) else Err(TryFromIntError)
  }

  /**
   * The body shared by `ean8` and `ean13`: the length check, then the
   * conversion to `i64`, then the nonzero check.
   */
  function Validate(digits: U64, expected: BarcodeType): (r: Result<Barcode, BarcodeError>)
    ensures r.Ok? <==> DecLen(digits) == RequiredLength(expected)
    ensures r.Ok? ==> r.value.digits == digits && IsEan(r.value)
    ensures r.Err? ==> r.error == InvalidBarcodeLength(RequiredLength(expected), DecLen(digits))
  {
    var len := DecLen(digits);
    if len != RequiredLength(expected) then
      Err(InvalidBarcodeLength(RequiredLength(expected), len))
    else
      match TryIntoI64(digits)
      case Err(e) => Err(e)
      case Ok(i) => if i == 0 then Err(InvalidBarcode(digits)) else Ok(Barcode(i))
  }

  function NewEan13(digits: U64): (r: Result<Barcode, BarcodeError>)
    ensures r.Ok? <==> 1_000_000_000_000 <= digits <= 9_999_999_999_999
    ensures r.Ok? ==> r.value.digits == digits
    ensures r.Err? ==> r.error == InvalidBarcodeLength(13, DecLen(digits))
  {
    DecLenThirteen(digits);
    Validate(digits, Ean13)
  }

  function NewEan8(digits: U64): (r: Result<Barcode, BarcodeError>)
    ensures r.Ok? <==> 10_000_000 <= digits <= 99_999_999
    ensures r.Ok? ==> r.value.digits == digits
    ensures r.Err? ==> r.error == InvalidBarcodeLength(8, DecLen(digits))
  {
    DecLenEight(digits);
    Validate(digits, Ean8)
  }

  /** `get_digits`: the stored value, never zero. */
  function GetDigits(b: Barcode): (d: I64)
    ensures d != 0
  {
    b.digits
  }

  /** `get_type`: the symbology, recovered from the digit count; panics (`unreachable!`) otherwise. */
  function GetType(b: Barcode): (t: BarcodeType)
    requires DecLen(I64AsU64(b.digits)) == 8 || DecLen(I64AsU64(b.digits)) == 13
    ensures DecLen(I64AsU64(b.digits)) == RequiredLength(t)
  {
    match DecLen(I64AsU64(b.digits))
    case 8 => Ean8
    case 13 => Ean13
  }

  /** get_digits and get_type undo the validating constructors. */
  lemma ConstructorsRoundTrip(digits: U64, t: BarcodeType)
    requires Validate(digits, t).Ok?
    ensures GetDigits(Validate(digits, t).value) == digits
    ensures GetType(Validate(digits, t).value) == t
  {
  }

  /** Every barcode the validating constructors accept has a type: `unreachable!` is never reached. */
  lemma IsEanHasType(b: Barcode)
    requires IsEan(b)
    ensures DecLen(I64AsU64(b.digits)) == 8 || DecLen(I64AsU64(b.digits)) == 13
    ensures GetType(b) == Ean8 <==> DecLen(b.digits) == 8
  {
  }

  /** `From<u64>`: panics unless the number has 8 or 13 digits; then it is `ean8` or `ean13`. */
  function FromU64(digits: U64): (b: Barcode)
    requires DecLen(digits) == 8 || DecLen(digits) == 13
    ensures b.digits == digits && IsEan(b)
    ensures DecLen(digits) == 8 ==> NewEan8(digits) == Ok(b)
    ensures DecLen(digits) == 13 ==> NewEan13(digits) == Ok(b)
  {
    match DecLen(digits)
    case 8 => NewEan8(digits).value
    case 13 => NewEan13(digits).value
  }

  /**
   * `From<i64>`: reinterprets the bits as `u64` first, so a negative number
   * has 19 or 20 digits and panics; the precondition admits only positive ones.
   */
  function FromI64(digits: I64): (b: Barcode)
    requires DecLen(I64AsU64(digits)) == 8 || DecLen(I64AsU64(digits)) == 13
    ensures digits > 0 && b.digits == digits && IsEan(b)
  {
    FromU64(I64AsU64(digits))
  }

  /** The decoder's format tag; `FormatOther` carries the `Debug` name of any other format. */
  datatype BarcodeFormat = FormatEan8 | FormatEan13 | FormatOther(debugName: string)

  /** What the symbol decoder reports: the decoded text and its format. */
  datatype BarcodeResult = BarcodeResult(text: string, format: BarcodeFormat)

  /**
   * `TryFrom<BarcodeResult>`: the text is parsed as a `u64` first (a parse
   * error becomes `ParseBarcodeErr`), then the format decides: EAN-8 and
   * EAN-13 validate the number, any other format is unsupported whatever
   * the text.
   */
  function TryFromResult(value: BarcodeResult): (r: Result<Barcode, BarcodeError>)
    ensures value.format.FormatOther? ==> r == Err(UnsupportedBarcodeType(value.format.debugName))
    ensures r.Ok? ==> IsEan(r.value)
    ensures value.format.FormatEan8? && r.Ok? ==> DecLen(r.value.digits) == 8
    ensures value.format.FormatEan13? && r.Ok? ==> DecLen(r.value.digits) == 13
    ensures !value.format.FormatOther? && ParseUnsigned(value.text, U64_MAX).Err? ==>
              r == Err(ParseBarcodeErr(ParseUnsigned(value.text, U64_MAX).error))
    ensures value.format.FormatEan8? && ParseUnsigned(value.text, U64_MAX).Ok? ==>
              r == NewEan8(ParseUnsigned(value.text, U64_MAX).value)
    ensures value.format.FormatEan13? && ParseUnsigned(value.text, U64_MAX).Ok? ==>
              r == NewEan13(ParseUnsigned(value.text, U64_MAX).value)
  {
    var digits := ParseUnsigned(value.text, U64_MAX);
    match value.format
    case FormatEan8 => (match digits case Err(k) => Err(ParseBarcodeErr(k)) case Ok(d) => NewEan8(d))
    case FormatEan13 => (match digits case Err(k) => Err(ParseBarcodeErr(k)) case Ok(d) => NewEan13(d))
    case FormatOther(name) => Err(UnsupportedBarcodeType(name))
  }

  /**
   * Exactly which decoder results become barcodes: an EAN tag and a text
   * made of an optional `+` and digits whose value has the tag's length.
   */
  lemma TryFromResultSpec(value: BarcodeResult)
    ensures TryFromResult(value).Ok? <==>
              && !value.format.FormatOther?
              && var t := Unsigned(value.text);
              && t != [] && AllDigits(t) && Value(t) <= U64_MAX
              && DecLen(Value(t)) == (if value.format.FormatEan8? then 8 else 13)
    ensures TryFromResult(value).Ok? ==> TryFromResult(value).value.digits == Value(Unsigned(value.text))
  {
    ParseUnsignedSpec(value.text, U64_MAX);
  }

  /** A decoder result carrying the decimal text of a number agrees with the constructor. */
  lemma TryFromDecimalText(digits: U64)
    ensures TryFromResult(BarcodeResult(ToDecimal(digits), FormatEan8)) == NewEan8(digits)
    ensures TryFromResult(BarcodeResult(ToDecimal(digits), FormatEan13)) == NewEan13(digits)
  {
    ParseToDecimal(digits, U64_MAX);
  }

  /**
   * Leading zeros are lost in the parse: a 13-character EAN-13 text that
   * starts with `0` is rejected as too short.
   */
  lemma LeadingZeroRejected(rest: string)
    requires |rest| == 12 && AllDigits(rest)
    ensures TryFromResult(BarcodeResult("0" + rest, FormatEan13)).Err?
    ensures TryFromResult(BarcodeResult("0" + rest, FormatEan13)).error.InvalidBarcodeLength?
    ensures TryFromResult(BarcodeResult("0" + rest, FormatEan13)).error.got <= 12
  {
    var text := "0" + rest;
    ValueLeadingZero(rest);
    ValueBound(rest);
    Pow10Large();
    assert Unsigned(text) == text;
    ParseUnsignedSpec(text, U64_MAX);
    DecLenIsLeast(Value(rest), 12);
  }

  // ---------------------------------------------------------------------
  // OptionBarcode, the nullable column type

  datatype OptionBarcode = OptionBarcode(inner: Option<Barcode>)

  function SomeBarcode(b: Barcode): (r: OptionBarcode)
    ensures r.inner == Some(b)
  {
    OptionBarcode(Some(b))
  }

  function NoBarcode(): (r: OptionBarcode)
    ensures r.inner.None?
  {
    OptionBarcode(None)
  }

  /** `From<Option<Barcode>>`: `Into<Barcode>` is the identity. */
  function FromOptionBarcode(value: Option<Barcode>): (r: OptionBarcode)
    ensures value.None? ==> r == NoBarcode()
    ensures value.Some? ==> r == SomeBarcode(value.value)
  {
    OptionBarcode(value)
  }

  /** `From<Option<u64>>`: each number goes through the panicking `From<u64>`. */
  function FromOptionU64(value: Option<U64>): (r: OptionBarcode)
    requires value.Some? ==> DecLen(value.value) == 8 || DecLen(value.value) == 13
    ensures r.inner.Some? <==> value.Some?
    ensures value.Some? ==> r.inner.value.digits == value.value && IsEan(r.inner.value)
  {
    match value
    case None => OptionBarcode(None)
    case Some(d) => OptionBarcode(Some(FromU64(d)))
  }

  /** The SQLite encoding of a barcode: its digits as an `i64`. */
  function Encode(b: Barcode): (column: I64)
    ensures column != 0
  {
    GetDigits(b)
  }

  /** The SQLite encoding of an optional barcode; `None` is SQL NULL. */
  function EncodeOption(ob: OptionBarcode): (cell: Option<I64>)
    ensures cell.Some? <==> ob.inner.Some?
  {
    match ob.inner
    case None => None
    case Some(b) => Some(Encode(b))
  }

  /** The SQLite decoding: 0 is "no barcode", any other integer is taken as is, without a length check. */
  function Decode(column: I64): (r: OptionBarcode)
    ensures r.inner.None? <==> column == 0
    ensures r.inner.Some? ==> GetDigits(r.inner.value) == column
  {
    OptionBarcode(if column == 0 then None else Some(Barcode(column)))
  }

  lemma DecodeEncode(b: Barcode)
    ensures Decode(Encode(b)) == SomeBarcode(b)
  {
  }

  lemma DecodeEncodeOption(ob: OptionBarcode)
    requires ob.inner.Some?
    ensures Decode(EncodeOption(ob).value) == ob
  {
  }

  /** Decoding does not validate: a stored 5 comes back as a barcode without a type. */
  lemma DecodeSkipsValidation()
    ensures Decode(5).inner.Some? && !IsEan(Decode(5).inner.value)
  {
  }
}

=== FILE: shopping_list.dfy ===
/**
 * The local shopping list (src/list/mod.rs): a vector of items kept in a
 * signal. Adding pushes at the end; removing an id retains every item with a
 * different id. The stored form maps every item to its serialized record.
 */
module ShoppingList {
  import opened ItemList

  /** A UUID is a 128-bit value. */
  type Uuid = bv128

  /** Reference definition of `retain(|item| item.id != id)`: the items with a different id, in order. */
  function Retain<Id(==), P>(items: seq<Item<Id, P>>, id: Id): (kept: seq<Item<Id, P>>)
    ensures |kept| <= |items|
    ensures forall i :: 0 <= i < |kept| ==> kept[i].id != id
  {
    if items == [] then []
    else if items[0].id == id then Retain(items[1..], id)
    else [items[0]] + Retain(items[1..], id)
  }

  /** How many items carry the id. */
  function CountId<Id(==), P>(items: seq<Item<Id, P>>, id: Id): nat {
    if items == [] then 0
    else (if items[0].id == id then 1 else 0) + CountId(items[1..], id)
  }

  /** Retain works piece by piece: the kept items of a concatenation are the kept items of each part, in order. */
  lemma {:induction false} RetainAppend<Id, P>(a: seq<Item<Id, P>>, b: seq<Item<Id, P>>, id: Id)
    ensures Retain(a + b, id) == Retain(a, id) + Retain(b, id)
  {
    if a != [] {
      assert (a + b)[1..] == a[1..] + b;
      RetainAppend(a[1..], b, id);
    } else {
      assert a + b == b;
    }
  }

  /** One more item is kept exactly when its id differs. */
  lemma RetainSnoc<Id, P>(items: seq<Item<Id, P>>, x: Item<Id, P>, id: Id)
    ensures Retain(items + [x], id) == Retain(items, id) + (if x.id != id then [x] else [])
  {
    RetainAppend(items, [x], id);
  }

  /** Every item with a different id survives, and only items of the input do. */
  lemma {:induction false} RetainMembers<Id, P>(items: seq<Item<Id, P>>, id: Id, x: Item<Id, P>)
    ensures x in Retain(items, id) <==> x in items && x.id != id
  {
    if items != [] {
      RetainMembers(items[1..], id, x);
      assert items == [items[0]] + items[1..];
    }
  }

  /** Exactly the matching items are dropped. */
  lemma {:induction false} RetainLength<Id, P>(items: seq<Item<Id, P>>, id: Id)
    ensures |Retain(items, id)| == |items| - CountId(items, id)
  {
    if items != [] {
      RetainLength(items[1..], id);
    }
  }

  /** Removing an absent id changes nothing, and only then. */
  lemma RetainAbsent<Id, P>(items: seq<Item<Id, P>>, id: Id)
    ensures Retain(items, id) == items <==> CountId(items, id) == 0
  {
    RetainLength(items, id);
    if CountId(items, id) == 0 {
      RetainAbsentUnchanged(items, id);
    }
  }

  lemma {:induction false} RetainAbsentUnchanged<Id, P>(items: seq<Item<Id, P>>, id: Id)
    requires CountId(items, id) == 0
    ensures Retain(items, id) == items
  {
    if items != [] {
      RetainAbsentUnchanged(items[1..], id);
      assert items == [items[0]] + items[1..];
    }
  }

  /** Removing twice is removing once. */
  lemma RetainIdempotent<Id, P>(items: seq<Item<Id, P>>, id: Id)
    ensures Retain(Retain(items, id), id) == Retain(items, id)
  {
    var kept := Retain(items, id);
    if CountId(kept, id) != 0 {
      CountIdPositive(kept, id);
    }
    RetainAbsent(kept, id);
  }

  lemma {:induction false} CountIdPositive<Id, P>(items: seq<Item<Id, P>>, id: Id)
    requires CountId(items, id) != 0
    ensures exists i :: 0 <= i < |items| && items[i].id == id
  {
    if items[0].id != id {
      CountIdPositive(items[1..], id);
      var i :| 0 <= i < |items[1..]| && items[1..][i].id == id;
      assert items[i + 1].id == id;
    }
  }

  /**
   * The two list versions agree on a removal exactly when at most one item
   * carries the id: src/list.rs drops only the first match, this list drops
   * them all.
   */
  lemma {:induction false} RemoveFirstIsRetainIff<Id, P>(items: seq<Item<Id, P>>, id: Id)
    ensures RemoveFirst(items, id) == Retain(items, id) <==> CountId(items, id) <= 1
  {
    if items != [] {
      var rest := items[1..];
      if items[0].id == id {
        RetainAbsent(rest, id);
      } else {
        RemoveFirstIsRetainIff(rest, id);
        assert RemoveFirst(items, id) == [items[0]] + RemoveFirst(rest, id);
        assert Retain(items, id) == [items[0]] + Retain(rest, id);
        if RemoveFirst(items, id) == Retain(items, id) {
          assert RemoveFirst(rest, id) == RemoveFirst(items, id)[1..];
        }
      }
    }
  }

  /** The list of src/list/mod.rs, whose item ids are UUIDs. */
  class List<P> {
    var items: seq<Item<Uuid, P>>

    /** `new`: the list starts from what was loaded from browser storage. */
    constructor (loaded: seq<Item<Uuid, P>>)
      ensures items == loaded
    {
      items := loaded;
    }

    /** `add`: push at the end. */
    method Add(item: Item<Uuid, P>)
      modifies this
      ensures items == old(items) + [item]
    {
      items := items + [item];
    }

    /** `remove`: retain the items whose id differs, in one pass. */
    method Remove(id: Uuid)
      modifies this
      ensures items == Retain(old(items), id)
    {
      var all := items;
      var kept := [];
      for i := 0 to |all|
        invariant kept == Retain(all[..i], id)
      {
        assert all[..i + 1] == all[..i] + [all[i]];
        RetainSnoc(all[..i], all[i], id);
        if all[i].id != id {
          kept := kept + [all[i]];
        }
      }
      assert all[..|all|] == all;
      items := kept;
    }
  }

  /** The stored form of the list. */
  datatype ListSerialized<S> = ListSerialized(items: seq<S>)

  /** `serialize`: every item through its serializer, in order. */
  function Serialize<Id, P, S>(content: seq<Item<Id, P>>, toSerialized: Item<Id, P> -> S): (r: seq<S>)
    ensures |r| == |content|
    ensures forall i :: 0 <= i < |content| ==> r[i] == toSerialized(content[i])
  {
    if content == [] then [] else [toSerialized(content[0])] + Serialize(content[1..], toSerialized)
  }

  /** `deserialize`: every stored record through the item constructor, in order. */
  function Deserialize<Id, P, S>(serialized: seq<S>, fromSerialized: S -> Item<Id, P>): (r: seq<Item<Id, P>>)
    ensures |r| == |serialized|
    ensures forall i :: 0 <= i < |serialized| ==> r[i] == fromSerialized(serialized[i])
  {
    if serialized == [] then [] else [fromSerialized(serialized[0])] + Deserialize(serialized[1..], fromSerialized)
  }

  /** `From<&Vec<Item>> for ListSerialized`. */
  function ListSerializedFrom<Id, P, S>(value: seq<Item<Id, P>>, toSerialized: Item<Id, P> -> S): (r: ListSerialized<S>)
    ensures |r.items| == |value|
    ensures forall i :: 0 <= i < |value| ==> r.items[i] == toSerialized(value[i])
  {
    ListSerialized(Serialize(value, toSerialized))
  }

  /** When the per-item conversions invert each other, storing and loading gives the list back. */
  lemma DeserializeSerialize<Id, P, S>(content: seq<Item<Id, P>>, toSerialized: Item<Id, P> -> S, fromSerialized: S -> Item<Id, P>)
    requires forall x :: fromSerialized(toSerialized(x)) == x
    ensures Deserialize(Serialize(content, toSerialized), fromSerialized) == content
  {
  }

  /** Serialization follows concatenation, so the stored order is the list order. */
  lemma SerializeAppend<Id, P, S>(a: seq<Item<Id, P>>, b: seq<Item<Id, P>>, toSerialized: Item<Id, P> -> S)
    ensures Serialize(a + b, toSerialized) == Serialize(a, toSerialized) + Serialize(b, toSerialized)
  {
  }
}

=== FILE: simple_barcode.dfy ===
/**
 * The older barcode type (src/barcode.rs): a plain `u64` whose constructors
 * assert the digit count instead of returning an error.
 */
module SimpleBarcode {
  import opened Numeric
  import opened DecimalLength

  datatype Barcode = Barcode(digits: U64)

  datatype BarcodeType = Ean13 | Ean8

  /** `get_digits`: the number is the whole barcode, so rebuilding from it gives `b` back. */
  function GetDigits(b: Barcode): (d: U64)
    ensures Barcode(d) == b
  {
    b.digits
  }

  /** `get_type`: 8 digits are EAN-8, 13 are EAN-13; anything else is `unreachable!`. */
  function GetType(b: Barcode): (t: BarcodeType)
    requires DecLen(b.digits) == 8 || DecLen(b.digits) == 13
    ensures t == Ean8 <==> 10_000_000 <= b.digits <= 99_999_999
    ensures t == Ean13 <==> 1_000_000_000_000 <= b.digits <= 9_999_999_999_999
  {
    DecLenEight(b.digits);
    DecLenThirteen(b.digits);
    if DecLen(b.digits) == 8 then Ean8 else Ean13
  }

  /** `ean13`: asserts 13 digits and keeps the number as it is. */
  function NewEan13(digits: U64): (b: Barcode)
    requires DecLen(digits) == 13
    ensures GetDigits(b) == digits && GetType(b) == Ean13
  {
    Barcode(digits)
  }

  /** `ean8`: asserts 8 digits and keeps the number as it is. */
  function NewEan8(digits: U64): (b: Barcode)
    requires DecLen(digits) == 8
    ensures GetDigits(b) == digits && GetType(b) == Ean8
  {
    Barcode(digits)
  }

  /** The assertion of `ean13` holds exactly for the numbers from 10^12 to 10^13 - 1. */
  lemma NewEan13Domain(digits: U64)
    ensures DecLen(digits) == 13 <==> Pow10(12) <= digits < Pow10(13)
  {
    DecLenThirteen(digits);
    assert Pow10(12) == 1_000_000_000_000;
  }

  /** The assertion of `ean8` holds exactly for the numbers from 10^7 to 10^8 - 1. */
  lemma NewEan8Domain(digits: U64)
    ensures DecLen(digits) == 8 <==> Pow10(7) <= digits < Pow10(8)
  {
    DecLenEight(digits);
  }
}

=== FILE: wrappers.dfy ===
/** Option and Result, the two wrappers Rust code returns everywhere. */
module Wrappers {

  datatype Option<+T> = None | Some(value: T)

  datatype Result<+T, +E> = Ok(value: T) | Err(error: E)

  /** `Result::ok`: forget the error. */
  function ToOption<T, E>(r: Result<T, E>): (o: Option<T>)
    ensures o.Some? <==> r.Ok?
    ensures r.Ok? ==> o.value == r.value
  {
    match r
    case Ok(v) => Some(v)
    case Err(_) => None
  }
}
